=== FILE: README.md ===
# Audio recorder controller, modelled in Dafny

This project models the Android recording controller of a React Native audio
recorder package: `AudioRecorderPackageModule`. The application calls four
commands on it: `startRecording`, `stopRecording`, `pauseRecording` and
`resumeRecording`. Each command settles a promise. The controller also owns an
audio-focus listener. The system calls that listener when another app takes
audio focus or gives it back.

The controller is a state machine over five fields:
- the recorder;
- `outputFilePath`;
- `isRecording`;
- `wasRecordingBeforeInterruption`;
- whether an audio-focus request is held.

Along the way it calls its collaborators:
- focus requests;
- recorder calls;
- status-change events to the application;
- notification posts and cancels;
- entering and leaving the foreground service.

The model is functional. `ControllerData.Controller` is an immutable record of the five
fields. Each command and each focus signal is a pure function in
`RecordingController`. It returns the next record, the reply the promise settles
with, and the ordered list of calls made (`ControllerData.Effect`). What the operating
system and the recorder answer is a parameter:
- whether focus is granted;
- the music directory, or its absence;
- the clock reading in milliseconds;
- for each recorder call, whether it returned or raised a caught exception, and
  with which message.

`Sessions.Step` and `Sessions.Run` drive the controller with a serialised
sequence of commands and focus signals. A focus signal reaches the listener only
while a focus request is held. The listener is attached to the request when it
is built, and it is detached when the request is abandoned.

Files:
- `option.dfy`: the option type.
- `decimal.dfy`: decimal rendering of the clock reading, as a Kotlin `Long` prints in a
  string template, with its parse-back.
- `controller_data.dfy`: the data model:
  - constants, status strings and error tags, each with its reading-back;
  - the output path, and the clock reading read back from it;
  - the two observations of a call list: `Statuses`, the events in order, and
    `LastOn`, the latest switch of one of three channels: session announced,
    foreground, focus.
- `controller.dfy`: the commands, `abandonAudioFocus` and the focus listener.
- `recorder_calls.dfy`: the order of the recorder calls within a step, against the
  events that report them.
- `session.dfy`: runs of inputs. It holds the controller's invariant and the proof
  that an observer of the calls reads the state correctly.
- `notices.dfy`: which interruption notifications stay posted.
- `events.dfy`: exactly which events each step announces.
- `session_laws.dfy`: laws about whole sessions.
- `scenarios.dfy`: concrete runs, including the ones where the code departs from an
  idealised Idle/Recording/Paused life cycle.

### Where the code departs from an idealised Idle/Recording/Paused life cycle

A reader might expect three states, Idle, Recording and Paused, with pause allowed
only while recording and resume only while paused. The model follows the code,
which does not work that way.
- `pauseRecording` never clears `isRecording`, and `resumeRecording` checks only
  `isRecording`. So a second pause succeeds and is announced again, and so does a
  resume with no pause before it (`Scenarios.PauseTwice`). With a Paused state, the
  second pause would get the "Recording is not active" error, and a resume with no
  pause before it would be refused.
- `startRecording` has no guard against an active session. A start that fails to
  open its recorder while recording still renames `outputFilePath`. The old
  recorder keeps writing the old file, and the next stop returns the new name
  (`Scenarios.FailedRestartRenames`).
- A denied focus request stays assigned. A stop whose recorder call raises has
  already abandoned focus, yet the controller stays recording. So "focus is held
  exactly while a session exists" does not hold. What does hold is that the focus
  channel of the call log matches the field (`Sessions.RunAgrees`).
- `stopRecording` clears neither `wasRecordingBeforeInterruption` nor the two
  interruption notifications (`SessionLaws.StopKeepsInterruption`,
  `Scenarios.StaleInterruption`).
- Events carry the strings `"Paused Due To External Action"` and
  `"Stopped Due To Time Limit"`, with spaces (`ControllerData.StatusText`). The
  application-side type names are written without spaces.

## Model

| member | source | states |
|---|---|---|
| RecordingController.StartRecording | android/src/main/java/com/audiorecorderpackage/AudioRecorderPackageModule.kt:117-174 | A notify threshold not below the time limit is rejected with INVALID_PARAMS and the fixed message, with no call and no field change, and only then. The start resolves exactly when the limits are valid, focus is granted, the directory exists and opening the recorder returns. Otherwise each cause has its own rejection: denied focus gets AUDIO_FOCUS_ERROR "Cannot get audio focus", a missing directory gets FILE_ERROR "Unable to access storage directory", and a recorder that raises gets START_ERROR "Failed to start recording: " followed by the exception's message. Every rejection keeps `isRecording` and emits no event. |
| RecordingController.AcquireAndOpen | android/src/main/java/com/audiorecorderpackage/AudioRecorderPackageModule.kt:134-173 | Focus is always requested first, and the request stays held even when denied. On success the path is `dir/recording_<millis>.mp4`. The recorder writes that file, `isRecording` becomes true, and the only event is Started. The path changes exactly when focus is granted and the directory exists. Each failure gets its own tag and message: AUDIO_FOCUS_ERROR, then FILE_ERROR, then START_ERROR with the exception's message. Failures keep the recorder and `isRecording` and are silent. |
| RecordingController.AbandonAudioFocus | android/src/main/java/com/audiorecorderpackage/AudioRecorderPackageModule.kt:177-182 | Afterwards no request is held. The abandon call is made exactly when a request was held. |
| RecordingController.StopRecording | android/src/main/java/com/audiorecorderpackage/AudioRecorderPackageModule.kt:186-209 | While not recording: STOP_ERROR "Recording is not active", no change, no call. Otherwise it resolves exactly when no present recorder's stop or release raises. A raising stop, or else a raising release, is reported as STOP_ERROR "Failed to stop recording: " with that exception's message. On success it returns the path, clears the recorder, `isRecording` and focus, and emits only Stopped. On a recorder failure focus is still gone, nothing else changes and there is no event. The interruption flag always survives. |
| RecordingController.PauseRecording | android/src/main/java/com/audiorecorderpackage/AudioRecorderPackageModule.kt:211-226 | No field ever changes. While not recording: PAUSE_ERROR "Recording is not active" and no call. It resolves exactly when recording and the recorder's pause returns. A raising pause gets PAUSE_ERROR "Failed to pause recording: " with the exception's message. On success the only event is Paused; otherwise there is no event. |
| RecordingController.ResumeRecording | android/src/main/java/com/audiorecorderpackage/AudioRecorderPackageModule.kt:228-243 | The same as pause, for RESUME_ERROR, "Failed to resume recording: " and the Resumed event. |
| RecordingController.OnFocusLoss | android/src/main/java/com/audiorecorderpackage/AudioRecorderPackageModule.kt:37-47 | The flag becomes `isRecording`, and nothing else changes. When not recording there is no call. When recording, the only event is Paused Due To External Action. |
| RecordingController.OnFocusGain | android/src/main/java/com/audiorecorderpackage/AudioRecorderPackageModule.kt:49-58 | Without the flag: no change and no call. With it: the flag is cleared and the only event is Resumed. |
| RecordingController.OnAudioFocusChange | android/src/main/java/com/audiorecorderpackage/AudioRecorderPackageModule.kt:35-61 | Permanent and transient losses are handled as losses, and a gain as a gain. Any other code, such as a loss that allows ducking, is ignored. |
| RecorderCalls.StartForeground | android/src/main/java/com/audiorecorderpackage/AudioRecorderPackageModule.kt:140-172 | A start enters the foreground service exactly when it resolves, whether or not a session was already running, and only after announcing Started. It never leaves the service. |
| RecorderCalls.StopForeground | android/src/main/java/com/audiorecorderpackage/AudioRecorderPackageModule.kt:186-209 | A stop leaves the foreground service exactly when it resolves, and only after announcing Stopped. A rejected stop, idle or failed, leaves the service alone, and no stop enters it. |
| RecorderCalls.StartOrder | android/src/main/java/com/audiorecorderpackage/AudioRecorderPackageModule.kt:134-170 | A successful start requests focus, then opens the recorder on the file it returns, then announces Started. It makes no call on a recorder it already holds: no recorder is called at all unless focus and a directory are there, and then the only recorder call opens a new one on the file it names (the old reference is overwritten, never stopped). |
| RecorderCalls.OpenOrder | android/src/main/java/com/audiorecorderpackage/AudioRecorderPackageModule.kt:140-168 | After the parameter check the recorder is opened on `dir/recording_<millis>.mp4` whenever focus is granted and the directory exists, and that opening is the only recorder call. Otherwise focus is requested and nothing else is called. |
| RecorderCalls.StopOrder | android/src/main/java/com/audiorecorderpackage/AudioRecorderPackageModule.kt:187-201 | With a recorder present, a held focus request is abandoned before the recorder's stop. Release comes after stop, and Stopped is announced only after release. |
| RecorderCalls.StopDrives | android/src/main/java/com/audiorecorderpackage/AudioRecorderPackageModule.kt:187-193 | With a recorder present, a stop from recording always calls the recorder's stop, and calls release exactly when stop returned. It asks nothing else of the recorder. |
| RecorderCalls.PauseOrder | android/src/main/java/com/audiorecorderpackage/AudioRecorderPackageModule.kt:212-218 | With a recorder present, pausing calls the recorder's pause exactly when recording. Paused is announced only after that call, and pausing asks nothing else of the recorder. |
| RecorderCalls.ResumeOrder | android/src/main/java/com/audiorecorderpackage/AudioRecorderPackageModule.kt:229-235 | With a recorder present, resuming calls the recorder's resume exactly when recording. Resumed is announced only after that call, and resuming asks nothing else of the recorder. |
| RecorderCalls.FocusOrder | android/src/main/java/com/audiorecorderpackage/AudioRecorderPackageModule.kt:37-58 | With a recorder present, the listener announces the external pause only after pausing the recorder, and Resumed only after resuming it. |
| RecorderCalls.FocusDrives | android/src/main/java/com/audiorecorderpackage/AudioRecorderPackageModule.kt:37-58 | With a recorder present, the listener pauses it exactly on a loss while recording, and resumes it exactly on a gain after such a loss. It makes no other recorder call. |
| RecorderCalls.StepOrder | android/src/main/java/com/audiorecorderpackage/AudioRecorderPackageModule.kt:37-235 | In every step taken with a recorder present, each pause event follows a recorder pause, each Resumed a recorder resume, and each Stopped a release that follows a stop, all within that step. |
| RecorderCalls.NoRecorderNoCalls | android/src/main/java/com/audiorecorderpackage/AudioRecorderPackageModule.kt:37-235 | With no recorder, stop, pause, resume and the listener make no recorder call: the calls through the missing reference are skipped. |
| ControllerData.StatusText | android/src/main/java/com/audiorecorderpackage/AudioRecorderPackageModule.kt:250-255 | Each status is sent as its own string, spaces included. Reading the string back with `StatusOf` gives the same status, so no two statuses share a string. |
| ControllerData.Tag | android/src/main/java/com/audiorecorderpackage/AudioRecorderPackageModule.kt:126-241 | Each error code is rejected with its own tag string. Reading the tag back with `CodeOf` gives the same code, so no two codes share a tag. |
| ControllerData.OutputPathReadsBack | android/src/main/java/com/audiorecorderpackage/AudioRecorderPackageModule.kt:152 | This lemma is the partner of `OutputPath`. The file `dir/recording_<millis>.mp4` has the expected prefix and extension. `ClockOf` reads the clock reading back out of the file name. |
| Decimal.IntToString | android/src/main/java/com/audiorecorderpackage/AudioRecorderPackageModule.kt:152 | A clock reading is rendered as a Kotlin `Long` prints: a minus sign exactly for negatives, then decimal digits with no leading zero, so zero is the only reading that starts with a zero digit. `ParseIntToString` is its partner. |
| Decimal.ParseIntToString | android/src/main/java/com/audiorecorderpackage/AudioRecorderPackageModule.kt:152 | The decimal rendering of the clock reading, with a sign for negatives, reads back as the same number. |
| Decimal.IntToStringInjective | android/src/main/java/com/audiorecorderpackage/AudioRecorderPackageModule.kt:152 | Two clock readings render alike exactly when they are equal. |
| ControllerData.OutputPathInjective | android/src/main/java/com/audiorecorderpackage/AudioRecorderPackageModule.kt:152 | In one directory, two starts name the same file exactly when their clock readings are equal. This follows from `OutputPathReadsBack`. |
| Sessions.Step | android/src/main/java/com/audiorecorderpackage/AudioRecorderPackageModule.kt:137 | Commands get a reply and focus signals do not. With no request held, a focus signal changes nothing and calls nothing. |
| Sessions.RunConsistent | android/src/main/java/com/audiorecorderpackage/AudioRecorderPackageModule.kt:154-195 | Along any run, recording implies a recorder, and a recorder implies an output path. |
| Sessions.RunAgrees | android/src/main/java/com/audiorecorderpackage/AudioRecorderPackageModule.kt:163-201 | From construction, `isRecording` holds exactly when the latest of Started/Stopped was Started. It also holds exactly when the foreground was last entered rather than left. A focus request is held exactly when focus was last requested rather than abandoned. |
| Notices.FocusNotices | android/src/main/java/com/audiorecorderpackage/AudioRecorderPackageModule.kt:42-57 | A loss while recording leaves notification 2 posted and 3 cancelled. A gain that resumes leaves 3 posted and 2 cancelled. |
| Notices.RunExclusive | android/src/main/java/com/audiorecorderpackage/AudioRecorderPackageModule.kt:35-75 | Over any run, the paused and resumed notifications are never both posted. |
| Events.CommandEvents | android/src/main/java/com/audiorecorderpackage/AudioRecorderPackageModule.kt:117-243 | Each command emits exactly the status of its success and nothing when rejected: no duplicate and no silent success. |
| Events.FocusEvents | android/src/main/java/com/audiorecorderpackage/AudioRecorderPackageModule.kt:35-61 | A loss while recording emits Paused Due To External Action once. A gain with the flag set emits Resumed once. Any other signal emits nothing. |
| Events.RunEvents | android/src/main/java/com/audiorecorderpackage/AudioRecorderPackageModule.kt:117-243 | Over any run of commands, the events are one per successful command, in command order. |
| SessionLaws.SessionKeepsFile | android/src/main/java/com/audiorecorderpackage/AudioRecorderPackageModule.kt:35-61 | Any run of pauses, resumes and focus signals keeps the recorder, the path, `isRecording` and the focus request. |
| SessionLaws.StopReturnsStartedFile | android/src/main/java/com/audiorecorderpackage/AudioRecorderPackageModule.kt:152-202 | After a successful start and any pauses, resumes and focus signals, a successful stop returns the started file. It also clears the recorder, `isRecording` and focus. |
| SessionLaws.UnheldIgnoresFocus | android/src/main/java/com/audiorecorderpackage/AudioRecorderPackageModule.kt:177-182 | With no request held, any number of focus signals change nothing, call nothing and get no reply. |
| SessionLaws.FocusIgnoredAfterStop | android/src/main/java/com/audiorecorderpackage/AudioRecorderPackageModule.kt:186-193 | After a stop from recording, whether or not it succeeded, focus signals change nothing and call nothing. |
| SessionLaws.StopKeepsInterruption | android/src/main/java/com/audiorecorderpackage/AudioRecorderPackageModule.kt:186-209 | A stop after an interrupting loss keeps the flag. The bare listener would still announce a resume. |
| SessionLaws.GainTwiceIsNoOp | android/src/main/java/com/audiorecorderpackage/AudioRecorderPackageModule.kt:49-58 | A gain right after a gain changes nothing and calls nothing. |
| SessionLaws.AbandonIdempotent | android/src/main/java/com/audiorecorderpackage/AudioRecorderPackageModule.kt:177-182 | A second focus release calls nothing and changes nothing. |
| SessionLaws.IdleCommandsRejected | android/src/main/java/com/audiorecorderpackage/AudioRecorderPackageModule.kt:206-242 | While not recording, any run of stops, pauses and resumes gets the matching "Recording is not active" error each time. It changes nothing and calls nothing. |
| Scenarios.UsualSession | android/src/main/java/com/audiorecorderpackage/AudioRecorderPackageModule.kt:117-243 | Start(60, true, 10), pause, resume, stop from construction: all resolve and the stop returns the started path. The controller ends idle with focus released. |
| Scenarios.UsualEvents | android/src/main/java/com/audiorecorderpackage/AudioRecorderPackageModule.kt:117-243 | That session emits Started, Paused, Resumed, Stopped, once each and in order. |
| Scenarios.PauseTwice | android/src/main/java/com/audiorecorderpackage/AudioRecorderPackageModule.kt:211-243 | While recording, pause, pause, resume all resolve and the controller is unchanged. |
| Scenarios.PauseTwiceEvents | android/src/main/java/com/audiorecorderpackage/AudioRecorderPackageModule.kt:211-243 | Those three commands emit Paused, Paused, Resumed. |
| Scenarios.StaleInterruption | android/src/main/java/com/audiorecorderpackage/AudioRecorderPackageModule.kt:37-58 | Start, loss, stop, start: the flag is still set, so a gain announces Resumed in a session that was never paused. |
| Scenarios.FailedRestartRenames | android/src/main/java/com/audiorecorderpackage/AudioRecorderPackageModule.kt:147-202 | A second start while recording whose recorder fails is rejected with START_ERROR. The recorder keeps the first file, yet the next stop returns the second, different path. |

## Left out

- Android APIs: the real `MediaRecorder`, `AudioManager`, `NotificationManager`, storage and clock calls, and the `Build.VERSION` branches. They are replaced by the answers passed in: focus granted or not, directory present or not, clock reading, and each recorder call returning or raising.
- RecordingController.StopRecording: the status event, the foreground-service calls and focus release are taken to return. In the source, the `RuntimeException` handler of `stopRecording` also covers `abandonAudioFocus`, `sendRecordingStatusEvent` and `stopForeground`. If `stopForeground` threw, the promise would be rejected with STOP_ERROR after `isRecording` was cleared and Stopped was emitted. That outcome is not modelled.
- RecordingController.StartRecording: `startForeground` and the Started event are taken to return. In the source they run after `isRecording` is set, and an exception from them is not caught there.
- Exceptions the code does not catch: a `RuntimeException` from configuring or starting the recorder at start (only `IOException` is caught), and an exception from the recorder's pause or resume inside the focus listener. They escape the controller, so no outcome is modelled for them. The listener's recorder calls are taken to return.
- The uninitialised `notificationManager` on systems older than Android O. It is not modelled.
- The race between the listener thread and the command thread. Inputs are a serialised sequence.
- Notification contents, and posts refused for lack of permission. A post is fire-and-forget and a refused post is swallowed, so `Notices.Posted` counts every post as shown.
- The time limit and the notify threshold are used only in the parameter check. `notifyTimeLimitReached` is never read. The auto-stop, its status "Stopped Due To Time Limit" and notification id 4 are declared but never used; they appear only as constants.
- NaN time limits. The limits are modelled as `real`, and with NaN the source's `>=` comparison would be false.
- Module registration, the foreground service's own body, the TypeScript wrappers and the example app hold no controller logic. They are not part of this model.
- Call details: only the calls' order and arguments are recorded, not the audio attributes of the focus request or the recorder's encoder settings.

=== FILE: controller.dfy ===
/** The recording controller: the four commands the application calls, the audio
    focus listener, and focus release. Each is a pure function from the current
    controller fields (and what the system answers) to the next fields, how the
    command's promise settles, and the calls made along the way, in order. */
module RecordingController {

  import opened Options
  import opened ControllerData

  /** What a command produces. */
  datatype Outcome = Outcome(next: Controller, reply: Reply, effects: seq<Effect>)

  /** What a step without a promise (a focus signal, focus release) produces. */
  datatype Reaction = Reaction(next: Controller, effects: seq<Effect>)

  /** `startRecording` refuses a notify threshold that is not below the time limit. */
  predicate InvalidLimits(recordingTimeLimit: real, notifyTimeLimit: Option<real>) {
    notifyTimeLimit.Some? && notifyTimeLimit.value >= recordingTimeLimit
  }

  /** The recorder call made through a nullable recorder reference: skipped when
      there is no recorder. */
  function OnRecorder(s: Controller, call: Effect): seq<Effect> {
    if s.recorder.Some? then [call] else []
  }

  /** `startRecording`. `notifyTimeLimitReached` is accepted and never read. */
  function StartRecording(
    s: Controller,
    recordingTimeLimit: real,
    notifyTimeLimitReached: Option<bool>,
    notifyTimeLimit: Option<real>,
    env: StartEnv): (o: Outcome)
    // The parameter check comes before any call or field change.
    ensures (o.reply == Rejected(InvalidParams, "notifyTimeLimit must be less than recordingTimeLimit"))
              == InvalidLimits(recordingTimeLimit, notifyTimeLimit)
    ensures InvalidLimits(recordingTimeLimit, notifyTimeLimit) ==> o.next == s && o.effects == []
    ensures o.reply.StartResolved? ==
              (!InvalidLimits(recordingTimeLimit, notifyTimeLimit) && env.focusGranted
               && env.musicDir.Some? && env.open.Returned?)
    ensures o.reply.StartResolved? || o.reply.Rejected?
    ensures o.reply.Rejected? ==> o.next.isRecording == s.isRecording && Silent(o.effects)
    // After the parameter check, each cause of failure has its own tag and message.
    ensures !InvalidLimits(recordingTimeLimit, notifyTimeLimit) && !env.focusGranted ==>
              o.reply == Rejected(AudioFocusError, "Cannot get audio focus")
    ensures !InvalidLimits(recordingTimeLimit, notifyTimeLimit) && env.focusGranted
              && env.musicDir.None? ==>
              o.reply == Rejected(FileError, "Unable to access storage directory")
    ensures !InvalidLimits(recordingTimeLimit, notifyTimeLimit) && env.focusGranted
              && env.musicDir.Some? && env.open.Raised? ==>
              o.reply == Rejected(StartError, "Failed to start recording: " + env.open.message)
  {
    if InvalidLimits(recordingTimeLimit, notifyTimeLimit) then
      Outcome(s, Rejected(InvalidParams, "notifyTimeLimit must be less than recordingTimeLimit"), [])
    else
      AcquireAndOpen(s, env)
  }

  /** The part of `startRecording` after the parameter check: request focus, find
      the directory, name the file, open the recorder. */
  function AcquireAndOpen(s: Controller, env: StartEnv): (o: Outcome)
    ensures o.reply.StartResolved? == (env.focusGranted && env.musicDir.Some? && env.open.Returned?)
    ensures o.reply.StartResolved? || (o.reply.Rejected? && o.reply.code != InvalidParams)
    ensures o.reply.StartResolved? ==>
              && o.reply.startedPath == OutputPath(env.musicDir.value, env.nowMillis)
              && o.next == s.(recorder := Some(Capture(o.reply.startedPath)),
                              outputFilePath := Some(o.reply.startedPath),
                              isRecording := true,
                              holdsFocusRequest := true)
              && EmitsOnly(o.effects, Started)
    // Every failure leaves the recording flag and the recorder alone and is silent.
    ensures o.reply.Rejected? ==>
              && o.next.isRecording == s.isRecording
              && o.next.recorder == s.recorder
              && Silent(o.effects)
    // A focus request stays assigned whether or not it was granted.
    ensures o.next.holdsFocusRequest && |o.effects| > 0 && o.effects[0] == RequestFocus
    // The path is assigned exactly when a directory was found after focus was granted.
    ensures o.next.outputFilePath
              == if env.focusGranted && env.musicDir.Some?
                 then Some(OutputPath(env.musicDir.value, env.nowMillis))
                 else s.outputFilePath
    ensures o.next.wasRecordingBeforeInterruption == s.wasRecordingBeforeInterruption
    // Each cause of failure has its own tag and message.
    ensures !env.focusGranted ==> o.reply == Rejected(AudioFocusError, "Cannot get audio focus")
    ensures env.focusGranted && env.musicDir.None? ==>
              o.reply == Rejected(FileError, "Unable to access storage directory")
    ensures env.focusGranted && env.musicDir.Some? && env.open.Raised? ==>
              o.reply == Rejected(StartError, "Failed to start recording: " + env.open.message)
  {
    var requested := s.(holdsFocusRequest := true);
    if !env.focusGranted then
      Outcome(requested, Rejected(AudioFocusError, "Cannot get audio focus"), [RequestFocus])
    else if env.musicDir.None? then
      Outcome(requested, Rejected(FileError, "Unable to access storage directory"), [RequestFocus])
    else
      var path := OutputPath(env.musicDir.value, env.nowMillis);
      var named := requested.(outputFilePath := Some(path));
      match env.open
      case Raised(m) =>
        Outcome(named, Rejected(StartError, "Failed to start recording: " + m),
                [RequestFocus, OpenCapture(path)])
      case Returned =>
        Outcome(named.(recorder := Some(Capture(path)), isRecording := true),
                StartResolved(path),
                [RequestFocus, OpenCapture(path), Emit(Started), EnterForeground])
  }

  /** `abandonAudioFocus`: abandons and forgets the focus request, if one is held. */
  function AbandonAudioFocus(s: Controller): (r: Reaction)
    ensures r.next == s.(holdsFocusRequest := false)
    ensures r.effects == [] <==> !s.holdsFocusRequest
    ensures s.holdsFocusRequest ==> r.effects == [AbandonFocus]
  {
    if s.holdsFocusRequest then Reaction(s.(holdsFocusRequest := false), [AbandonFocus])
    else Reaction(s, [])
  }

  /** `stopRecording`. Focus is abandoned before the recorder is stopped, so a
      recorder failure leaves focus released but the controller still recording. */
  function StopRecording(s: Controller, env: StopEnv): (o: Outcome)
    ensures !s.isRecording ==> o == Outcome(s, Rejected(StopError, NotActive), [])
    ensures o.reply.StopResolved? || (o.reply.Rejected? && o.reply.code == StopError)
    ensures o.reply.StopResolved? <==>
              s.isRecording && (s.recorder.Some? ==> env.stop.Returned? && env.release.Returned?)
    ensures o.reply.StopResolved? ==>
              && o.reply.stoppedPath == s.outputFilePath
              && o.next == s.(recorder := None, isRecording := false, holdsFocusRequest := false)
              && EmitsOnly(o.effects, Stopped)
    // A recorder failure is reported, after focus has already been given up.
    ensures s.isRecording && o.reply.Rejected? ==>
              && o.next == s.(holdsFocusRequest := false)
              && Silent(o.effects)
    // The interruption flag survives a stop.
    ensures o.next.wasRecordingBeforeInterruption == s.wasRecordingBeforeInterruption
    // The first recorder call that raises names the failure.
    ensures s.isRecording && s.recorder.Some? && env.stop.Raised? ==>
              o.reply == Rejected(StopError, "Failed to stop recording: " + env.stop.message)
    ensures s.isRecording && s.recorder.Some? && env.stop.Returned? && env.release.Raised? ==>
              o.reply == Rejected(StopError, "Failed to stop recording: " + env.release.message)
  {
    if !s.isRecording then
      Outcome(s, Rejected(StopError, NotActive), [])
    else
      var released := AbandonAudioFocus(s);
      if s.recorder.Some? && env.stop.Raised? then
        Outcome(released.next, Rejected(StopError, "Failed to stop recording: " + env.stop.message),
                released.effects + [StopCapture])
      else if s.recorder.Some? && env.release.Raised? then
        Outcome(released.next, Rejected(StopError, "Failed to stop recording: " + env.release.message),
                released.effects + [StopCapture, ReleaseCapture])
      else
        Outcome(released.next.(recorder := None, isRecording := false),
                StopResolved(s.outputFilePath),
                released.effects + OnRecorder(s, StopCapture) + OnRecorder(s, ReleaseCapture)
                  + [Emit(Stopped), ExitForeground])
  }

  /** `pauseRecording`. It changes no field: the controller still counts as recording. */
  function PauseRecording(s: Controller, pause: CallOutcome): (o: Outcome)
    ensures o.next == s
    ensures !s.isRecording ==> o.reply == Rejected(PauseError, NotActive) && o.effects == []
    ensures o.reply == PauseResolved <==> s.isRecording && (s.recorder.Some? ==> pause.Returned?)
    ensures o.reply.PauseResolved? || (o.reply.Rejected? && o.reply.code == PauseError)
    ensures if o.reply.PauseResolved? then EmitsOnly(o.effects, Paused) else Silent(o.effects)
    // A recorder pause that raises names the failure.
    ensures s.isRecording && s.recorder.Some? && pause.Raised? ==>
              o.reply == Rejected(PauseError, "Failed to pause recording: " + pause.message)
  {
    if !s.isRecording then
      Outcome(s, Rejected(PauseError, NotActive), [])
    else if s.recorder.Some? && pause.Raised? then
      Outcome(s, Rejected(PauseError, "Failed to pause recording: " + pause.message), [PauseCapture])
    else
      Outcome(s, PauseResolved, OnRecorder(s, PauseCapture) + [Emit(Paused)])
  }

  /** `resumeRecording`. Like pausing, it only checks `isRecording`, which pausing
      never clears. */
  function ResumeRecording(s: Controller, resume: CallOutcome): (o: Outcome)
    ensures o.next == s
    ensures !s.isRecording ==> o.reply == Rejected(ResumeError, NotActive) && o.effects == []
    ensures o.reply == ResumeResolved <==> s.isRecording && (s.recorder.Some? ==> resume.Returned?)
    ensures o.reply.ResumeResolved? || (o.reply.Rejected? && o.reply.code == ResumeError)
    ensures if o.reply.ResumeResolved? then EmitsOnly(o.effects, Resumed) else Silent(o.effects)
    // A recorder resume that raises names the failure.
    ensures s.isRecording && s.recorder.Some? && resume.Raised? ==>
              o.reply == Rejected(ResumeError, "Failed to resume recording: " + resume.message)
  {
    if !s.isRecording then
      Outcome(s, Rejected(ResumeError, NotActive), [])
    else if s.recorder.Some? && resume.Raised? then
      Outcome(s, Rejected(ResumeError, "Failed to resume recording: " + resume.message), [ResumeCapture])
    else
      Outcome(s, ResumeResolved, OnRecorder(s, ResumeCapture) + [Emit(Resumed)])
  }

  predicate IsLoss(change: FocusChange) {
    change == Loss || change == LossTransient
  }

  /** The listener's reaction to a loss of focus, permanent or transient: remember
      whether recording was on and, if it was, pause and swap the resumed
      notification for the paused one. */
  function OnFocusLoss(s: Controller): (r: Reaction)
    ensures r.next == s.(wasRecordingBeforeInterruption := s.isRecording)
    ensures !s.isRecording ==> r.effects == []
    ensures s.isRecording ==> EmitsOnly(r.effects, PausedDueToExternalAction)
  {
    var flagged := s.(wasRecordingBeforeInterruption := s.isRecording);
    if s.isRecording then
      Reaction(flagged, OnRecorder(s, PauseCapture)
                 + [Emit(PausedDueToExternalAction),
                    PostNotification(NotificationIdPaused),
                    CancelNotification(NotificationIdResumed)])
    else
      Reaction(flagged, [])
  }

  /** The listener's reaction to regaining focus: only when the last loss found
      recording on, resume, forget the loss and swap the notifications back. */
  function OnFocusGain(s: Controller): (r: Reaction)
    ensures !s.wasRecordingBeforeInterruption ==> r == Reaction(s, [])
    ensures s.wasRecordingBeforeInterruption ==>
              && r.next == s.(wasRecordingBeforeInterruption := false)
              && EmitsOnly(r.effects, Resumed)
  {
    if s.wasRecordingBeforeInterruption then
      Reaction(s.(wasRecordingBeforeInterruption := false),
               OnRecorder(s, ResumeCapture)
                 + [Emit(Resumed),
                    PostNotification(NotificationIdResumed),
                    CancelNotification(NotificationIdPaused)])
    else
      Reaction(s, [])
  }

  /** The audio focus listener: losses and gains as above; a loss that only asks
      to lower the volume is ignored. */
  function OnAudioFocusChange(s: Controller, change: FocusChange): (r: Reaction)
    ensures IsLoss(change) ==> r == OnFocusLoss(s)
    ensures change == Gain ==> r == OnFocusGain(s)
    ensures change == LossTransientCanDuck ==> r == Reaction(s, [])
  {
    match change
    case Loss | LossTransient => OnFocusLoss(s)
    case Gain => OnFocusGain(s)
    case LossTransientCanDuck => Reaction(s, [])
  }
}

=== FILE: controller_data.dfy ===
/** The data the recording controller works on: its five fields, the status strings
    and notification ids it uses, the calls it makes to its collaborators (recorded
    as effects), the replies its commands settle their promises with, and what the
    operating system and the recorder answer when called. */
module ControllerData {

  import opened Options
  import Decimal

  // Notification ids of the interruption notifications.
  const NotificationIdPaused: int := 2
  const NotificationIdResumed: int := 3
  // Declared by the controller but never posted.
  const NotificationIdTimeLimit: int := 4

  /** The statuses a status-change event can carry. */
  datatype Status =
    | Paused | Started | Stopped
    | StoppedDueToTimeLimit       // declared by the controller but never emitted
    | PausedDueToExternalAction
    | Resumed

  /** The string an event carries for each status. Each status has its own
      string, which an application can read back with `StatusOf`. */
  function StatusText(status: Status): (text: string)
    ensures StatusOf(text) == Some(status)
  {
    match status
    case Paused => "Paused"
    case Started => "Started"
    case Stopped => "Stopped"
    case StoppedDueToTimeLimit => "Stopped Due To Time Limit"
    case PausedDueToExternalAction => "Paused Due To External Action"
    case Resumed => "Resumed"
  }

  /** The status an event string names, as an application listening for the
      event reads it; `None` for any other string. */
  function StatusOf(text: string): Option<Status> {
    if text == "Paused" then Some(Paused)
    else if text == "Started" then Some(Started)
    else if text == "Stopped" then Some(Stopped)
    else if text == "Stopped Due To Time Limit" then Some(StoppedDueToTimeLimit)
    else if text == "Paused Due To External Action" then Some(PausedDueToExternalAction)
    else if text == "Resumed" then Some(Resumed)
    else None
  }

  /** The capture engine instance the controller holds, identified by the file it
      was configured to write. */
  datatype Capture = Capture(file: string)

  /** The controller's mutable fields, as one immutable value.
      `holdsFocusRequest` says whether an audio-focus request object is assigned,
      whether or not the system granted it; the focus listener is attached to it. */
  datatype Controller = Controller(
    recorder: Option<Capture>,
    outputFilePath: Option<string>,
    isRecording: bool,
    wasRecordingBeforeInterruption: bool,
    holdsFocusRequest: bool)

  /** The controller right after construction: every field null or false. */
  const Initial: Controller := Controller(None, None, false, false, false)

  /** A call into the operating system, the recorder or the event channel. */
  datatype Effect =
    | RequestFocus                 // request transient exclusive audio focus
    | AbandonFocus                 // abandon the held focus request
    | OpenCapture(file: string)    // create a recorder for `file`, prepare and start it
    | PauseCapture
    | ResumeCapture
    | StopCapture
    | ReleaseCapture
    | Emit(status: Status)         // status-change event to the application
    | PostNotification(id: int)    // fire-and-forget: a refusal is swallowed
    | CancelNotification(id: int)
    | EnterForeground              // start the foreground recording service
    | ExitForeground               // stop it

  /** The notification calls that follow the listener's event: on a loss the
      paused notice goes up and the resumed one comes down, on a gain the
      reverse. */
  const LossNotices: seq<Effect> :=
    [PostNotification(NotificationIdPaused), CancelNotification(NotificationIdResumed)]
  const GainNotices: seq<Effect> :=
    [PostNotification(NotificationIdResumed), CancelNotification(NotificationIdPaused)]

  /** The tag a command's promise is rejected with. */
  datatype ErrorCode =
    | InvalidParams | AudioFocusError | FileError | StartError
    | StopError | PauseError | ResumeError

  /** The tag string of each error code. Each code has its own tag, which an
      application can read back with `CodeOf`. */
  function Tag(code: ErrorCode): (tag: string)
    ensures CodeOf(tag) == Some(code)
  {
    match code
    case InvalidParams => "INVALID_PARAMS"
    case AudioFocusError => "AUDIO_FOCUS_ERROR"
    case FileError => "FILE_ERROR"
    case StartError => "START_ERROR"
    case StopError => "STOP_ERROR"
    case PauseError => "PAUSE_ERROR"
    case ResumeError => "RESUME_ERROR"
  }

  /** The error code a rejection tag names, as an application matching on the
      tag reads it; `None` for any other string. */
  function CodeOf(tag: string): Option<ErrorCode> {
    if tag == "INVALID_PARAMS" then Some(InvalidParams)
    else if tag == "AUDIO_FOCUS_ERROR" then Some(AudioFocusError)
    else if tag == "FILE_ERROR" then Some(FileError)
    else if tag == "START_ERROR" then Some(StartError)
    else if tag == "STOP_ERROR" then Some(StopError)
    else if tag == "PAUSE_ERROR" then Some(PauseError)
    else if tag == "RESUME_ERROR" then Some(ResumeError)
    else None
  }

  const NotActive: string := "Recording is not active"

  /** How a command's promise settles. */
  datatype Reply =
    | StartResolved(startedPath: string)          // { started: true, filePath }
    | StopResolved(stoppedPath: Option<string>)   // { filePath }
    | PauseResolved                               // { paused: true }
    | ResumeResolved                              // { resumed: true }
    | Rejected(code: ErrorCode, message: string)

  /** How a call to a collaborator ended: it returned, or it raised the kind of
      exception its caller catches, with that exception's message. */
  datatype CallOutcome = Returned | Raised(message: string)

  /** What the system answers during `startRecording`: whether focus is granted,
      the app's music directory (absent when storage is unavailable), the wall-clock
      reading in milliseconds, and how creating, preparing and starting the
      recorder ends. */
  datatype StartEnv = StartEnv(
    focusGranted: bool,
    musicDir: Option<string>,
    nowMillis: int,
    open: CallOutcome)

  /** How the recorder's `stop` and `release` calls end during `stopRecording`. */
  datatype StopEnv = StopEnv(stop: CallOutcome, release: CallOutcome)

  /** The focus-change codes the system delivers to a focus listener. */
  datatype FocusChange = Loss | LossTransient | LossTransientCanDuck | Gain

  /** The file a session records to: the music directory, then `recording_`, the
      clock reading in decimal, and the `.mp4` extension. */
  function OutputPath(dir: string, nowMillis: int): string {
    dir + "/recording_" + Decimal.IntToString(nowMillis) + ".mp4"
  }

  /** The clock reading a recording file in `dir` was named after; `None` for a
      name of any other shape. */
  function ClockOf(dir: string, path: string): Option<int> {
    if |path| >= |dir| + 15 && path[..|dir| + 11] == dir + "/recording_"
       && path[|path| - 4..] == ".mp4"
    then Decimal.ParseInt(path[|dir| + 11..|path| - 4])
    else None
  }

  /** A recording file's name gives back the clock reading it was named after. */
  lemma OutputPathReadsBack(dir: string, nowMillis: int)
    ensures ClockOf(dir, OutputPath(dir, nowMillis)) == Some(nowMillis)
  {
    var digits := Decimal.IntToString(nowMillis);
    var path := OutputPath(dir, nowMillis);
    assert path[..|dir| + 11] == dir + "/recording_";
    assert path[|path| - 4..] == ".mp4";
    assert path[|dir| + 11..|path| - 4] == digits;
    Decimal.ParseIntToString(nowMillis);
  }

  /** Sessions started at different clock readings in the same directory record to
      different files. */
  lemma OutputPathInjective(dir: string, a: int, b: int)
    ensures OutputPath(dir, a) == OutputPath(dir, b) <==> a == b
  {
    OutputPathReadsBack(dir, a);
    OutputPathReadsBack(dir, b);
  }

  /** The statuses emitted by a run of effects, in order. */
  function Statuses(effects: seq<Effect>): seq<Status> {
    if |effects| == 0 then []
    else
      var last := effects[|effects| - 1];
      Statuses(effects[..|effects| - 1]) + (if last.Emit? then [last.status] else [])
  }

  /** No status-change event among `effects`. */
  predicate Silent(effects: seq<Effect>) {
    forall e :: e in effects ==> !e.Emit?
  }

  /** Every occurrence of `later` among `effects` has a `first` before it. */
  predicate Precedes(effects: seq<Effect>, first: Effect, later: Effect) {
    forall j :: 0 <= j < |effects| && effects[j] == later ==> first in effects[..j]
  }

  /** A `first` at position `i` with no `later` up to it precedes every `later`. */
  lemma PrecedesAt(effects: seq<Effect>, first: Effect, later: Effect, i: nat)
    requires i < |effects| && effects[i] == first
    requires forall k :: 0 <= k <= i ==> effects[k] != later
    ensures Precedes(effects, first, later)
  {
    forall j | 0 <= j < |effects| && effects[j] == later
      ensures first in effects[..j]
    {
      assert effects[..j][i] == first;
    }
  }

  /** Nothing to precede where `later` does not occur. */
  lemma PrecedesAbsent(effects: seq<Effect>, first: Effect, later: Effect)
    requires later !in effects
    ensures Precedes(effects, first, later)
  {
  }

  /** Calls made ahead of a block that holds no `later` keep the block's order. */
  lemma PrecedesAfter(before: seq<Effect>, block: seq<Effect>, first: Effect, later: Effect)
    requires later !in before
    requires Precedes(block, first, later)
    ensures Precedes(before + block, first, later)
  {
    var all := before + block;
    assert forall i :: 0 <= i < |before| ==> all[i] == before[i] && all[i] != later;
    forall j | 0 <= j < |all| && all[j] == later
      ensures first in all[..j]
    {
      var k := j - |before|;
      assert all[j] == block[k];
      assert all[..j] == before + block[..k];
    }
  }

  /** `status` is emitted among `effects`, and no other status is. */
  predicate EmitsOnly(effects: seq<Effect>, status: Status) {
    && Emit(status) in effects
    && forall e :: e in effects && e.Emit? ==> e.status == status
  }

  lemma {:induction false} SilentStatuses(effects: seq<Effect>)
    requires Silent(effects)
    ensures Statuses(effects) == []
    decreases |effects|
  {
    if |effects| > 0 {
      var prefix := effects[..|effects| - 1];
      assert forall e :: e in prefix ==> e in effects;
      SilentStatuses(prefix);
    }
  }

  /** A single event between two silent stretches is all `Statuses` reports. */
  lemma SingleEventStatuses(before: seq<Effect>, status: Status, after: seq<Effect>)
    requires Silent(before) && Silent(after)
    ensures Statuses(before + [Emit(status)] + after) == [status]
  {
    SilentStatuses(before);
    SilentStatuses(after);
    StatusesAppend(before + [Emit(status)], after);
    StatusesAppend(before, [Emit(status)]);
    assert Statuses([Emit(status)]) == Statuses([]) + [status];
  }

  /** An event closing a silent stretch is all `Statuses` reports. */
  lemma ClosingEventStatuses(before: seq<Effect>, status: Status)
    requires Silent(before)
    ensures Statuses(before + [Emit(status)]) == [status]
  {
    SilentStatuses(before);
    assert (before + [Emit(status)])[..|before|] == before;
  }

  /** The three on/off facts an observer of the calls can follow: whether a
      recording session was announced, whether the foreground service runs, and
      whether a focus request is out. */
  datatype Channel = Lifecycle | Foreground | Focus

  /** The channel an effect switches, and whether it switches it on. */
  function Switches(e: Effect): Option<(Channel, bool)> {
    match e
    case Emit(Started) => Some((Lifecycle, true))
    case Emit(Stopped) => Some((Lifecycle, false))
    case EnterForeground => Some((Foreground, true))
    case ExitForeground => Some((Foreground, false))
    case RequestFocus => Some((Focus, true))
    case AbandonFocus => Some((Focus, false))
    case _ => None
  }

  predicate OnChannel(e: Effect, ch: Channel) {
    Switches(e).Some? && Switches(e).value.0 == ch
  }

  /** Whether the latest effect of `effects` on channel `ch` switched it on;
      `None` when no effect touched the channel. */
  function LastOn(effects: seq<Effect>, ch: Channel): Option<bool> {
    if |effects| == 0 then None
    else
      var last := effects[|effects| - 1];
      if OnChannel(last, ch) then Some(Switches(last).value.1)
      else LastOn(effects[..|effects| - 1], ch)
  }

  lemma {:induction false} StatusesAppend(a: seq<Effect>, b: seq<Effect>)
    ensures Statuses(a + b) == Statuses(a) + Statuses(b)
    decreases |b|
  {
    if |b| > 0 {
      var b' := b[..|b| - 1];
      assert (a + b)[..|a + b| - 1] == a + b';
      StatusesAppend(a, b');
    } else {
      assert a + b == a;
    }
  }

  lemma {:induction false} LastOnAppend(a: seq<Effect>, b: seq<Effect>, ch: Channel)
    ensures LastOn(a + b, ch) == if LastOn(b, ch).Some? then LastOn(b, ch) else LastOn(a, ch)
    decreases |b|
  {
    if |b| > 0 {
      var b' := b[..|b| - 1];
      assert (a + b)[..|a + b| - 1] == a + b';
      LastOnAppend(a, b', ch);
    } else {
      assert a + b == a;
    }
  }
}

=== FILE: decimal.dfy ===
/** Decimal rendering of integers, as string templates render a Kotlin `Long`:
    an optional minus sign followed by the digits, most significant first,
    with no leading zeros. The recorder uses it to put the clock reading into
    the output file name. */
module Decimal {

  import opened Options

  predicate IsDigit(c: char) {
    '0' <= c <= '9'
  }

  predicate IsDigits(s: string) {
    forall i :: 0 <= i < |s| ==> IsDigit(s[i])
  }

  function DigitValue(c: char): (d: nat)
    requires IsDigit(c)
    ensures d < 10
  {
    c as int - '0' as int
  }

  function DigitChar(d: nat): (c: char)
    requires d < 10
    ensures IsDigit(c)
    ensures DigitValue(c) == d
  {
    ('0' as int + d) as char
  }

  /** The digits of `n`; a single `0` for zero and no leading zero otherwise. */
  function NatToString(n: nat): (s: string)
    ensures 1 <= |s| && IsDigits(s)
    ensures n >= 10 <==> |s| >= 2
    ensures s[0] == '0' <==> n == 0
  {
    if n < 10 then [DigitChar(n)] else NatToString(n / 10) + [DigitChar(n % 10)]
  }

  /** Reads a string of digits back as the number it denotes. */
  function ParseNat(s: string): (n: nat)
    requires IsDigits(s)
  {
    if |s| == 0 then 0 else ParseNat(s[..|s| - 1]) * 10 + DigitValue(s[|s| - 1])
  }

  /** Rendering of a signed number: a minus sign only for negatives. */
  function IntToString(i: int): (s: string)
    ensures 1 <= |s|
    ensures s[0] == '-' <==> i < 0
    ensures IsDigits(s[1..])
    // No leading zero: a zero digit first only for zero itself.
    ensures i < 0 ==> |s| >= 2 && s[1] != '0'
    ensures i >= 0 ==> IsDigits(s) && (s[0] == '0' ==> s == "0")
  {
    if i < 0 then "-" + NatToString(-i) else NatToString(i)
  }

  /** Reads a rendering produced by `IntToString` back; `None` for anything that is
      not an optional minus sign followed by at least one digit. */
  function ParseInt(s: string): (r: Option<int>)
  {
    if 2 <= |s| && s[0] == '-' && IsDigits(s[1..]) then Some(0 - ParseNat(s[1..]) as int)
    else if 1 <= |s| && IsDigits(s) then Some(ParseNat(s))
    else None
  }

  lemma {:induction false} ParseNatToString(n: nat)
    ensures ParseNat(NatToString(n)) == n
  {
    if n >= 10 {
      var s := NatToString(n);
      assert s[..|s| - 1] == NatToString(n / 10);
      ParseNatToString(n / 10);
    }
  }

  lemma ParseNegative(n: nat)
    requires n > 0
    ensures ParseInt("-" + NatToString(n)) == Some(-(n as int))
  {
    var digits := NatToString(n);
    var s := "-" + digits;
    assert s[1..] == digits;
    ParseNatToString(n);
  }

  lemma ParseNonNegative(n: nat)
    ensures ParseInt(NatToString(n)) == Some(n)
  {
    var s := NatToString(n);
    assert s[0] != '-';
    ParseNatToString(n);
  }

  /** Every rendered number reads back as itself. */
  lemma ParseIntToString(i: int)
    ensures ParseInt(IntToString(i)) == Some(i)
  {
    if i < 0 {
      ParseNegative(-i);
    } else {
      ParseNonNegative(i);
    }
  }

  /** Distinct numbers render as distinct strings. */
  lemma IntToStringInjective(a: int, b: int)
    ensures IntToString(a) == IntToString(b) <==> a == b
  {
    if IntToString(a) == IntToString(b) {
      ParseIntToString(a);
      ParseIntToString(b);
    }
  }
}

=== FILE: events.dfy ===
/** The status-change events each step sends to the application, in order. */
module Events {

  import opened Options
  import opened ControllerData
  import opened RecordingController
  import opened Sessions

  /** What a command announces: its own status when it succeeds, nothing when it
      is rejected. */
  function Announced(reply: Reply): seq<Status> {
    match reply
    case StartResolved(_) => [Started]
    case StopResolved(_) => [Stopped]
    case PauseResolved => [Paused]
    case ResumeResolved => [Resumed]
    case Rejected(_, _) => []
  }

  lemma StartEvents(s: Controller, limit: real, reached: Option<bool>, notify: Option<real>, env: StartEnv)
    ensures var o := StartRecording(s, limit, reached, notify, env);
            Statuses(o.effects) == Announced(o.reply)
  {
    var o := StartRecording(s, limit, reached, notify, env);
    if o.reply.StartResolved? {
      var path := OutputPath(env.musicDir.value, env.nowMillis);
      assert o.effects == [RequestFocus, OpenCapture(path)] + [Emit(Started)] + [EnterForeground];
      SingleEventStatuses([RequestFocus, OpenCapture(path)], Started, [EnterForeground]);
    } else {
      SilentStatuses(o.effects);
    }
  }

  /** The calls a successful stop makes before its event announce nothing. */
  lemma StopCallsSilent(s: Controller)
    ensures Silent(AbandonAudioFocus(s).effects + OnRecorder(s, StopCapture) + OnRecorder(s, ReleaseCapture))
  {
    var calls := AbandonAudioFocus(s).effects + OnRecorder(s, StopCapture) + OnRecorder(s, ReleaseCapture);
    assert forall k :: 0 <= k < |calls| ==> calls[k] in [AbandonFocus, StopCapture, ReleaseCapture];
  }

  lemma StopEvents(s: Controller, env: StopEnv)
    ensures var o := StopRecording(s, env);
            Statuses(o.effects) == Announced(o.reply)
  {
    var o := StopRecording(s, env);
    if o.reply.StopResolved? {
      var calls := AbandonAudioFocus(s).effects + OnRecorder(s, StopCapture) + OnRecorder(s, ReleaseCapture);
      StopCallsSilent(s);
      assert o.effects == calls + [Emit(Stopped)] + [ExitForeground];
      SingleEventStatuses(calls, Stopped, [ExitForeground]);
    } else {
      SilentStatuses(o.effects);
    }
  }

  lemma PauseEvents(s: Controller, call: CallOutcome)
    ensures var o := PauseRecording(s, call);
            Statuses(o.effects) == Announced(o.reply)
  {
    var o := PauseRecording(s, call);
    if o.reply.PauseResolved? {
      assert o.effects == OnRecorder(s, PauseCapture) + [Emit(Paused)];
      ClosingEventStatuses(OnRecorder(s, PauseCapture), Paused);
    } else {
      SilentStatuses(o.effects);
    }
  }

  lemma ResumeEvents(s: Controller, call: CallOutcome)
    ensures var o := ResumeRecording(s, call);
            Statuses(o.effects) == Announced(o.reply)
  {
    var o := ResumeRecording(s, call);
    if o.reply.ResumeResolved? {
      assert o.effects == OnRecorder(s, ResumeCapture) + [Emit(Resumed)];
      ClosingEventStatuses(OnRecorder(s, ResumeCapture), Resumed);
    } else {
      SilentStatuses(o.effects);
    }
  }

  /** Every command announces exactly its own status when it succeeds and nothing
      when it is rejected: no duplicate and no silent success. */
  lemma CommandEvents(s: Controller, i: Input)
    requires !i.FocusSignal?
    ensures Statuses(Step(s, i).effects) == Announced(Step(s, i).reply.value)
  {
    match i
    case StartCmd(limit, reached, notify, env) => StartEvents(s, limit, reached, notify, env);
    case StopCmd(env) => StopEvents(s, env);
    case PauseCmd(call) => PauseEvents(s, call);
    case ResumeCmd(call) => ResumeEvents(s, call);
  }

  /** A loss while recording announces the external pause once; a gain announces
      a resume once if the last loss found recording on; anything else is silent. */
  lemma FocusEvents(s: Controller, change: FocusChange)
    ensures Statuses(OnAudioFocusChange(s, change).effects)
         == if IsLoss(change) && s.isRecording then [PausedDueToExternalAction]
            else if change == Gain && s.wasRecordingBeforeInterruption then [Resumed]
            else []
  {
    var r := OnAudioFocusChange(s, change);
    if IsLoss(change) && s.isRecording {
      assert r.effects == OnRecorder(s, PauseCapture) + [Emit(PausedDueToExternalAction)] + LossNotices;
      SingleEventStatuses(OnRecorder(s, PauseCapture), PausedDueToExternalAction, LossNotices);
    } else if change == Gain && s.wasRecordingBeforeInterruption {
      assert r.effects == OnRecorder(s, ResumeCapture) + [Emit(Resumed)] + GainNotices;
      SingleEventStatuses(OnRecorder(s, ResumeCapture), Resumed, GainNotices);
    } else {
      assert r.effects == [];
    }
  }

  /** What a run's replies announce, reply by reply. */
  function AnnouncedAll(replies: seq<Option<Reply>>): seq<Status> {
    if |replies| == 0 then []
    else
      var last := replies[|replies| - 1];
      AnnouncedAll(replies[..|replies| - 1]) + (if last.Some? then Announced(last.value) else [])
  }

  /** Across any run of commands the application hears one event per successful
      command, in the order of the commands, and none for a rejected one. */
  lemma {:induction false} RunEvents(s: Controller, inputs: seq<Input>)
    requires forall k :: 0 <= k < |inputs| ==> !inputs[k].FocusSignal?
    ensures Statuses(Run(s, inputs).log) == AnnouncedAll(Run(s, inputs).replies)
    decreases |inputs|
  {
    if |inputs| > 0 {
      var prefix := inputs[..|inputs| - 1];
      var i := inputs[|inputs| - 1];
      assert inputs == prefix + [i];
      RunEvents(s, prefix);
      RunLast(s, prefix, i);
      var before := Run(s, prefix);
      StatusesAppend(before.log, Step(before.final, i).effects);
      CommandEvents(before.final, i);
      var replies := Run(s, inputs).replies;
      assert replies[..|replies| - 1] == before.replies;
    }
  }

  lemma AnnouncedLast(replies: seq<Option<Reply>>, r: Reply)
    ensures AnnouncedAll(replies + [Some(r)]) == AnnouncedAll(replies) + Announced(r)
  {
    assert (replies + [Some(r)])[..|replies|] == replies;
  }
}

=== FILE: notices.dfy ===
/** Which interruption notifications an interrupted session leaves posted. */
module Notices {

  import opened Options
  import opened ControllerData
  import opened RecordingController
  import opened Sessions

  /** The notification ids still posted after `log`, starting from `shown`. A post
      the system refuses is treated as posted: this over-approximates. */
  function Posted(shown: set<int>, log: seq<Effect>): set<int>
    decreases |log|
  {
    if |log| == 0 then shown
    else
      var before := Posted(shown, log[..|log| - 1]);
      match log[|log| - 1]
      case PostNotification(id) => before + {id}
      case CancelNotification(id) => before - {id}
      case _ => before
  }

  /** The paused and resumed notifications are never both up. */
  predicate Exclusive(shown: set<int>) {
    !(NotificationIdPaused in shown && NotificationIdResumed in shown)
  }

  predicate NoNotices(effects: seq<Effect>) {
    forall e :: e in effects ==> !e.PostNotification? && !e.CancelNotification?
  }

  lemma {:induction false} PostedAppend(shown: set<int>, a: seq<Effect>, b: seq<Effect>)
    ensures Posted(shown, a + b) == Posted(Posted(shown, a), b)
    decreases |b|
  {
    if |b| > 0 {
      var b' := b[..|b| - 1];
      assert (a + b)[..|a + b| - 1] == a + b';
      PostedAppend(shown, a, b');
    } else {
      assert a + b == a;
    }
  }

  lemma {:induction false} PostedUntouched(shown: set<int>, effects: seq<Effect>)
    requires NoNotices(effects)
    ensures Posted(shown, effects) == shown
    decreases |effects|
  {
    if |effects| > 0 {
      var prefix := effects[..|effects| - 1];
      assert forall e :: e in prefix ==> e in effects;
      PostedUntouched(shown, prefix);
    }
  }

  /** Posting one interruption notification and cancelling the other. */
  lemma PostedSwap(shown: set<int>, calls: seq<Effect>, status: Status, post: int, cancel: int)
    requires NoNotices(calls)
    ensures Posted(shown, calls + [Emit(status), PostNotification(post), CancelNotification(cancel)])
         == shown + {post} - {cancel}
  {
    var e := calls + [Emit(status), PostNotification(post), CancelNotification(cancel)];
    PostedUntouched(shown, calls);
    assert e == (calls + [Emit(status)]) + [PostNotification(post), CancelNotification(cancel)];
    PostedAppend(shown, calls + [Emit(status)], [PostNotification(post), CancelNotification(cancel)]);
    PostedAppend(shown, calls, [Emit(status)]);
    assert [Emit(status)][..0] == [];
    assert [PostNotification(post), CancelNotification(cancel)][..1] == [PostNotification(post)];
    assert [PostNotification(post)][..0] == [];
  }

  /** A focus loss while recording leaves exactly the paused notification up among
      the two; a gain that resumes leaves exactly the resumed one. */
  lemma FocusNotices(s: Controller, shown: set<int>, change: FocusChange)
    ensures var r := OnAudioFocusChange(s, change);
            var after := Posted(shown, r.effects);
            && (IsLoss(change) && s.isRecording ==>
                  NotificationIdPaused in after && NotificationIdResumed !in after)
            && (change == Gain && s.wasRecordingBeforeInterruption ==>
                  NotificationIdResumed in after && NotificationIdPaused !in after)
            && (Exclusive(shown) ==> Exclusive(after))
  {
    var r := OnAudioFocusChange(s, change);
    if IsLoss(change) && s.isRecording {
      PostedSwap(shown, OnRecorder(s, PauseCapture), PausedDueToExternalAction,
                 NotificationIdPaused, NotificationIdResumed);
    } else if change == Gain && s.wasRecordingBeforeInterruption {
      PostedSwap(shown, OnRecorder(s, ResumeCapture), Resumed,
                 NotificationIdResumed, NotificationIdPaused);
    } else {
      assert r.effects == [];
    }
  }

  lemma StopNoNotices(s: Controller, env: StopEnv)
    ensures NoNotices(StopRecording(s, env).effects)
  {
    assert forall e :: e in StopRecording(s, env).effects ==>
      e in [AbandonFocus, StopCapture, ReleaseCapture, Emit(Stopped), ExitForeground];
  }

  lemma StartNoNotices(s: Controller, limit: real, reached: Option<bool>, notify: Option<real>, env: StartEnv)
    ensures NoNotices(StartRecording(s, limit, reached, notify, env).effects)
  {
  }

  lemma PauseResumeNoNotices(s: Controller, call: CallOutcome)
    ensures NoNotices(PauseRecording(s, call).effects)
    ensures NoNotices(ResumeRecording(s, call).effects)
  {
  }

  lemma CommandNoNotices(s: Controller, i: Input)
    requires !i.FocusSignal?
    ensures NoNotices(Step(s, i).effects)
  {
    match i
    case StartCmd(limit, reached, notify, env) => StartNoNotices(s, limit, reached, notify, env);
    case StopCmd(env) => StopNoNotices(s, env);
    case PauseCmd(call) => PauseResumeNoNotices(s, call);
    case ResumeCmd(call) => PauseResumeNoNotices(s, call);
  }

  lemma StepExclusive(s: Controller, shown: set<int>, i: Input)
    requires Exclusive(shown)
    ensures Exclusive(Posted(shown, Step(s, i).effects))
  {
    if i.FocusSignal? {
      if s.holdsFocusRequest {
        FocusNotices(s, shown, i.change);
      }
    } else {
      CommandNoNotices(s, i);
      PostedUntouched(shown, Step(s, i).effects);
    }
  }

  /** However commands and focus signals interleave, the paused and the resumed
      notification are never both posted. */
  lemma {:induction false} RunExclusive(inputs: seq<Input>)
    ensures Exclusive(Posted({}, Run(Initial, inputs).log))
    decreases |inputs|
  {
    if |inputs| > 0 {
      var prefix := inputs[..|inputs| - 1];
      var before := Run(Initial, prefix);
      var step := Step(before.final, inputs[|inputs| - 1]);
      RunExclusive(prefix);
      PostedAppend({}, before.log, step.effects);
      StepExclusive(before.final, Posted({}, before.log), inputs[|inputs| - 1]);
    }
  }
}

=== FILE: option.dfy ===
/** The value-or-nothing type used for the source's nullable fields and parameters. */
module Options {

  datatype Option<+T> = None | Some(value: T)
}

=== FILE: recorder_calls.dfy ===
/** The order of the recorder calls within one step: a present recorder is driven
    before the event that announces what it did, so the application never hears
    of a pause, resume or stop the recorder has not been asked to make. */
module RecorderCalls {

  import opened Options
  import opened ControllerData
  import opened RecordingController
  import opened Sessions

  /** Within `effects`, every pause event follows a pause call, every resume event a
      resume call, and every Stopped event a release call, which itself follows a
      stop call. */
  predicate DrivenFirst(effects: seq<Effect>) {
    && Precedes(effects, PauseCapture, Emit(Paused))
    && Precedes(effects, PauseCapture, Emit(PausedDueToExternalAction))
    && Precedes(effects, ResumeCapture, Emit(Resumed))
    && Precedes(effects, StopCapture, ReleaseCapture)
    && Precedes(effects, ReleaseCapture, Emit(Stopped))
  }

  /** Calls that drive no recorder and announce none of its events. */
  predicate Unrelated(effects: seq<Effect>) {
    forall e :: e in effects ==>
      e !in [PauseCapture, ResumeCapture, StopCapture, ReleaseCapture,
             Emit(Paused), Emit(PausedDueToExternalAction), Emit(Resumed), Emit(Stopped)]
  }

  lemma UnrelatedDriven(effects: seq<Effect>)
    requires Unrelated(effects)
    ensures DrivenFirst(effects)
  {
    PrecedesAbsent(effects, PauseCapture, Emit(Paused));
    PrecedesAbsent(effects, PauseCapture, Emit(PausedDueToExternalAction));
    PrecedesAbsent(effects, ResumeCapture, Emit(Resumed));
    PrecedesAbsent(effects, StopCapture, ReleaseCapture);
    PrecedesAbsent(effects, ReleaseCapture, Emit(Stopped));
  }

  /** The calls of a start that goes as far as opening its recorder on `path`,
      and, when the recorder opens, announces Started. */
  function OpenAttempt(path: string, succeeds: bool): seq<Effect> {
    if succeeds then [RequestFocus, OpenCapture(path), Emit(Started), EnterForeground]
    else [RequestFocus, OpenCapture(path)]
  }

  lemma OpenAttemptDriven(path: string, succeeds: bool)
    ensures var e := OpenAttempt(path, succeeds);
            && DrivenFirst(e)
            && OnlyRecorderCalls(e, [OpenCapture(path)])
            && OpenCapture(path) in e
            && Precedes(e, RequestFocus, OpenCapture(path))
            && Precedes(e, OpenCapture(path), Emit(Started))
  {
    var e := OpenAttempt(path, succeeds);
    assert e[1] == OpenCapture(path);
    UnrelatedDriven(e);
    PrecedesAt(e, RequestFocus, OpenCapture(path), 0);
    PrecedesAt(e, OpenCapture(path), Emit(Started), 1);
  }

  /** Proof step, not a specification: unfolds `AcquireAndOpen`'s list of calls
      into `OpenAttempt`, by how the system answers. */
  lemma OpenCalls(s: Controller, env: StartEnv)
    ensures var o := AcquireAndOpen(s, env);
            && (!(env.focusGranted && env.musicDir.Some?) ==> o.effects == [RequestFocus])
            && (env.focusGranted && env.musicDir.Some? ==>
                  o.effects == OpenAttempt(OutputPath(env.musicDir.value, env.nowMillis), env.open.Returned?))
            && (o.reply.StartResolved? ==> o.reply.startedPath == OutputPath(env.musicDir.value, env.nowMillis))
  {
  }

  /** After the parameter check, a start requests focus, then opens the recorder
      on the file it returns, then announces Started; it drives no recorder it
      already holds: the only recorder call is the opening of the new one. */
  lemma OpenOrder(s: Controller, env: StartEnv)
    ensures var o := AcquireAndOpen(s, env);
            && DrivenFirst(o.effects)
            && (env.focusGranted && env.musicDir.Some? ==>
                  OnlyRecorderCalls(o.effects, [OpenCapture(OutputPath(env.musicDir.value, env.nowMillis))]))
            && (env.focusGranted && env.musicDir.Some? ==>
                  OpenCapture(OutputPath(env.musicDir.value, env.nowMillis)) in o.effects)
            && (!(env.focusGranted && env.musicDir.Some?) ==> o.effects == [RequestFocus])
            && (o.reply.StartResolved? ==>
                  && Precedes(o.effects, RequestFocus, OpenCapture(o.reply.startedPath))
                  && Precedes(o.effects, OpenCapture(o.reply.startedPath), Emit(Started)))
  {
    OpenCalls(s, env);
    if !env.focusGranted || env.musicDir.None? {
      UnrelatedDriven([RequestFocus]);
    } else {
      OpenAttemptDriven(OutputPath(env.musicDir.value, env.nowMillis), env.open.Returned?);
    }
  }

  /** The same for the whole command: a rejected parameter check calls nothing.
      A start makes no call on a recorder it already holds: it calls no recorder
      at all unless focus and a directory are there, and then only opens a new
      one on the file it names. */
  lemma StartOrder(s: Controller, limit: real, reached: Option<bool>, notify: Option<real>, env: StartEnv)
    ensures var o := StartRecording(s, limit, reached, notify, env);
            && DrivenFirst(o.effects)
            && (InvalidLimits(limit, notify) || !(env.focusGranted && env.musicDir.Some?) ==>
                  NoRecorderCall(o.effects))
            && (!InvalidLimits(limit, notify) && env.focusGranted && env.musicDir.Some? ==>
                  OnlyRecorderCalls(o.effects, [OpenCapture(OutputPath(env.musicDir.value, env.nowMillis))]))
            && (o.reply.StartResolved? ==>
                  && Precedes(o.effects, RequestFocus, OpenCapture(o.reply.startedPath))
                  && Precedes(o.effects, OpenCapture(o.reply.startedPath), Emit(Started)))
  {
    var o := StartRecording(s, limit, reached, notify, env);
    if InvalidLimits(limit, notify) {
      assert o.effects == [];
      UnrelatedDriven([]);
    } else {
      assert o == AcquireAndOpen(s, env);
      OpenOrder(s, env);
      if !(env.focusGranted && env.musicDir.Some?) {
        assert o.effects == [RequestFocus];
      }
    }
  }

  /** A start enters the foreground service exactly when it succeeds, and only
      after announcing Started; it never leaves the service. */
  lemma StartForeground(s: Controller, limit: real, reached: Option<bool>, notify: Option<real>, env: StartEnv)
    ensures var o := StartRecording(s, limit, reached, notify, env);
            && (EnterForeground in o.effects <==> o.reply.StartResolved?)
            && ExitForeground !in o.effects
            && Precedes(o.effects, Emit(Started), EnterForeground)
  {
    var o := StartRecording(s, limit, reached, notify, env);
    if o.reply.StartResolved? {
      var path := OutputPath(env.musicDir.value, env.nowMillis);
      assert o.effects == OpenAttempt(path, true);
      PrecedesAt(o.effects, Emit(Started), EnterForeground, 2);
    } else if InvalidLimits(limit, notify) {
      assert o.effects == [];
    } else {
      OpenCalls(s, env);
      assert o.effects == [RequestFocus] || o.effects == [RequestFocus, OpenCapture(OutputPath(env.musicDir.value, env.nowMillis))];
      PrecedesAbsent(o.effects, Emit(Started), EnterForeground);
    }
  }

  /** A stop leaves the foreground service exactly when it succeeds, and only
      after announcing Stopped; it never enters the service. */
  lemma StopForeground(s: Controller, env: StopEnv)
    ensures var o := StopRecording(s, env);
            && (ExitForeground in o.effects <==> o.reply.StopResolved?)
            && EnterForeground !in o.effects
            && Precedes(o.effects, Emit(Stopped), ExitForeground)
  {
    var o := StopRecording(s, env);
    if s.isRecording {
      var released := AbandonAudioFocus(s).effects;
      var tail := if s.recorder.Some? then StopTail(env) else [Emit(Stopped), ExitForeground];
      StopCalls(s, env);
      StopTailForeground(env);
      PrecedesAt([Emit(Stopped), ExitForeground], Emit(Stopped), ExitForeground, 0);
      assert ExitForeground !in released && EnterForeground !in released && Emit(Stopped) !in released;
      PrecedesAfter(released, tail, Emit(Stopped), ExitForeground);
    } else {
      PrecedesAbsent(o.effects, Emit(Stopped), ExitForeground);
    }
  }

  /** The service calls of a stop's recorder calls: the service is left only after
      Stopped, which needs both recorder calls to return. */
  lemma StopTailForeground(env: StopEnv)
    ensures ExitForeground in StopTail(env) <==> env.stop.Returned? && env.release.Returned?
    ensures EnterForeground !in StopTail(env)
    ensures Precedes(StopTail(env), Emit(Stopped), ExitForeground)
  {
    var tail := StopTail(env);
    if env.stop.Returned? && env.release.Returned? {
      PrecedesAt(tail, Emit(Stopped), ExitForeground, 2);
    } else {
      PrecedesAbsent(tail, Emit(Stopped), ExitForeground);
    }
  }

  /** The recorder calls of a stop from recording, after focus is given up: a stop,
      then, once it returned, a release, then, once that returned, the event. */
  function StopTail(env: StopEnv): seq<Effect> {
    if env.stop.Raised? then [StopCapture]
    else if env.release.Raised? then [StopCapture, ReleaseCapture]
    else [StopCapture, ReleaseCapture, Emit(Stopped), ExitForeground]
  }

  lemma StopTailDriven(env: StopEnv)
    ensures DrivenFirst(StopTail(env))
    ensures OnlyRecorderCalls(StopTail(env), [StopCapture, ReleaseCapture])
  {
    var tail := StopTail(env);
    PrecedesAbsent(tail, PauseCapture, Emit(Paused));
    PrecedesAbsent(tail, PauseCapture, Emit(PausedDueToExternalAction));
    PrecedesAbsent(tail, ResumeCapture, Emit(Resumed));
    PrecedesAt(tail, StopCapture, ReleaseCapture, 0);
    if env.stop.Returned? {
      PrecedesAt(tail, ReleaseCapture, Emit(Stopped), 1);
    } else {
      PrecedesAbsent(tail, ReleaseCapture, Emit(Stopped));
    }
  }

  /** Proof step, not a specification: unfolds `StopRecording`'s list of calls
      from recording: focus release, then the recorder calls, or, with no
      recorder, straight to the event. */
  lemma StopCalls(s: Controller, env: StopEnv)
    requires s.isRecording
    ensures StopRecording(s, env).effects
         == AbandonAudioFocus(s).effects
            + (if s.recorder.Some? then StopTail(env) else [Emit(Stopped), ExitForeground])
  {
  }

  /** With a recorder present, a stop gives up focus before touching the recorder,
      releases the recorder only after stopping it, and announces Stopped only
      after both. */
  lemma StopOrder(s: Controller, env: StopEnv)
    requires s.recorder.Some?
    ensures var o := StopRecording(s, env);
            && DrivenFirst(o.effects)
            && (s.holdsFocusRequest ==> Precedes(o.effects, AbandonFocus, StopCapture))
  {
    var o := StopRecording(s, env);
    if s.isRecording {
      var released := AbandonAudioFocus(s).effects;
      var tail := StopTail(env);
      StopCalls(s, env);
      StopTailDriven(env);
      PrecedesAfter(released, tail, PauseCapture, Emit(Paused));
      PrecedesAfter(released, tail, PauseCapture, Emit(PausedDueToExternalAction));
      PrecedesAfter(released, tail, ResumeCapture, Emit(Resumed));
      PrecedesAfter(released, tail, StopCapture, ReleaseCapture);
      PrecedesAfter(released, tail, ReleaseCapture, Emit(Stopped));
      if s.holdsFocusRequest {
        assert o.effects == [AbandonFocus] + tail;
        PrecedesAt(o.effects, AbandonFocus, StopCapture, 0);
      }
    } else {
      UnrelatedDriven(o.effects);
    }
  }

  /** With a recorder present, a stop from recording always stops the recorder,
      and releases it exactly when its stop returned; it asks nothing else of the
      recorder. */
  lemma StopDrives(s: Controller, env: StopEnv)
    requires s.recorder.Some?
    ensures var o := StopRecording(s, env);
            && (StopCapture in o.effects <==> s.isRecording)
            && (ReleaseCapture in o.effects <==> s.isRecording && env.stop.Returned?)
            && OnlyRecorderCalls(o.effects, [StopCapture, ReleaseCapture])
  {
    var o := StopRecording(s, env);
    if s.isRecording {
      var released := AbandonAudioFocus(s).effects;
      StopCalls(s, env);
      assert released == [] || released == [AbandonFocus];
      assert o.effects[|released|] == StopCapture;
      assert env.stop.Returned? ==> o.effects[|released| + 1] == ReleaseCapture;
      StopTailDriven(env);
      OnlyRecorderCallsAfter(released, StopTail(env), [StopCapture, ReleaseCapture]);
    }
  }

  /** The calls of a successful pause or resume, or of a focus reaction, for a
      present recorder: the recorder call first, then the event and whatever
      follows it. */
  lemma CallThenEvent(call: Effect, event: Effect, rest: seq<Effect>)
    requires call in [PauseCapture, ResumeCapture]
    requires event == Emit(if call == PauseCapture then Paused else Resumed)
          || (call == PauseCapture && event == Emit(PausedDueToExternalAction))
    requires Unrelated(rest)
    ensures DrivenFirst([call, event] + rest)
  {
    var e := [call, event] + rest;
    assert forall k :: 2 <= k < |e| ==> e[k] in rest;
    PrecedesAbsent(e, StopCapture, ReleaseCapture);
    PrecedesAbsent(e, ReleaseCapture, Emit(Stopped));
    if call == PauseCapture {
      PrecedesAt(e, PauseCapture, Emit(Paused), 0);
      PrecedesAt(e, PauseCapture, Emit(PausedDueToExternalAction), 0);
      PrecedesAbsent(e, ResumeCapture, Emit(Resumed));
    } else {
      PrecedesAbsent(e, PauseCapture, Emit(Paused));
      PrecedesAbsent(e, PauseCapture, Emit(PausedDueToExternalAction));
      PrecedesAt(e, ResumeCapture, Emit(Resumed), 0);
    }
  }

  /** The calls of a pause or resume with a recorder present: none while not
      recording, else the recorder call, then, if it returned, the event. */
  function Attempt(call: Effect, event: Effect, active: bool, returned: bool): seq<Effect> {
    if !active then [] else if !returned then [call] else [call, event]
  }

  lemma AttemptDriven(call: Effect, event: Effect, active: bool, returned: bool)
    requires (call == PauseCapture && event == Emit(Paused)) || (call == ResumeCapture && event == Emit(Resumed))
    ensures DrivenFirst(Attempt(call, event, active, returned))
    ensures call in Attempt(call, event, active, returned) <==> active
    ensures OnlyRecorderCalls(Attempt(call, event, active, returned), [call])
  {
    var e := Attempt(call, event, active, returned);
    if active && returned {
      assert e == [call, event] + [];
      CallThenEvent(call, event, []);
    } else {
      assert e == [] || e == [call];
      PrecedesAbsent(e, PauseCapture, Emit(Paused));
      PrecedesAbsent(e, PauseCapture, Emit(PausedDueToExternalAction));
      PrecedesAbsent(e, ResumeCapture, Emit(Resumed));
      PrecedesAbsent(e, StopCapture, ReleaseCapture);
      PrecedesAbsent(e, ReleaseCapture, Emit(Stopped));
    }
  }

  /** With a recorder present, Paused is announced only after the recorder was
      asked to pause, which it is whenever recording, and pausing asks nothing
      else of it. */
  lemma PauseOrder(s: Controller, call: CallOutcome)
    requires s.recorder.Some?
    ensures DrivenFirst(PauseRecording(s, call).effects)
    ensures PauseCapture in PauseRecording(s, call).effects <==> s.isRecording
    ensures OnlyRecorderCalls(PauseRecording(s, call).effects, [PauseCapture])
  {
    assert PauseRecording(s, call).effects == Attempt(PauseCapture, Emit(Paused), s.isRecording, call.Returned?);
    AttemptDriven(PauseCapture, Emit(Paused), s.isRecording, call.Returned?);
  }

  /** With a recorder present, Resumed is announced only after the recorder was
      asked to resume, which it is whenever recording, and resuming asks nothing
      else of it. */
  lemma ResumeOrder(s: Controller, call: CallOutcome)
    requires s.recorder.Some?
    ensures DrivenFirst(ResumeRecording(s, call).effects)
    ensures ResumeCapture in ResumeRecording(s, call).effects <==> s.isRecording
    ensures OnlyRecorderCalls(ResumeRecording(s, call).effects, [ResumeCapture])
  {
    assert ResumeRecording(s, call).effects == Attempt(ResumeCapture, Emit(Resumed), s.isRecording, call.Returned?);
    AttemptDriven(ResumeCapture, Emit(Resumed), s.isRecording, call.Returned?);
  }

  /** Proof step, not a specification: unfolds the listener's list of calls, by
      which reaction the signal gets. */
  lemma FocusCalls(s: Controller, change: FocusChange)
    ensures var e := OnAudioFocusChange(s, change).effects;
            && (IsLoss(change) && s.isRecording ==>
                  e == OnRecorder(s, PauseCapture) + [Emit(PausedDueToExternalAction)] + LossNotices)
            && (change == Gain && s.wasRecordingBeforeInterruption ==>
                  e == OnRecorder(s, ResumeCapture) + [Emit(Resumed)] + GainNotices)
            && (!(IsLoss(change) && s.isRecording) && !(change == Gain && s.wasRecordingBeforeInterruption) ==>
                  e == [])
  {
  }

  /** Proof step, not a specification: the listener's calls on a loss while
      recording, with a recorder present: the pause call, then the event, then
      the notifications. */
  lemma LossOrder(s: Controller, change: FocusChange)
    requires s.recorder.Some? && IsLoss(change) && s.isRecording
    ensures OnAudioFocusChange(s, change).effects
         == [PauseCapture, Emit(PausedDueToExternalAction)] + LossNotices
  {
    FocusCalls(s, change);
  }

  /** Proof step, not a specification: the listener's calls on a gain after an
      interrupting loss, with a recorder present: the resume call, then the
      event, then the notifications. */
  lemma GainOrder(s: Controller, change: FocusChange)
    requires s.recorder.Some? && change == Gain && s.wasRecordingBeforeInterruption
    ensures OnAudioFocusChange(s, change).effects == [ResumeCapture, Emit(Resumed)] + GainNotices
  {
    FocusCalls(s, change);
  }

  /** With a recorder present, the listener pauses it before announcing the
      external pause, and resumes it before announcing the resume. */
  lemma FocusOrder(s: Controller, change: FocusChange)
    requires s.recorder.Some?
    ensures DrivenFirst(OnAudioFocusChange(s, change).effects)
  {
    if IsLoss(change) && s.isRecording {
      LossOrder(s, change);
      CallThenEvent(PauseCapture, Emit(PausedDueToExternalAction), LossNotices);
    } else if change == Gain && s.wasRecordingBeforeInterruption {
      GainOrder(s, change);
      CallThenEvent(ResumeCapture, Emit(Resumed), GainNotices);
    } else {
      FocusCalls(s, change);
      UnrelatedDriven([]);
    }
  }

  /** With a recorder present, the listener pauses it exactly on a loss while
      recording, and resumes it exactly on a gain after a loss that found
      recording on; it asks nothing else of the recorder. */
  lemma FocusDrives(s: Controller, change: FocusChange)
    requires s.recorder.Some?
    ensures PauseCapture in OnAudioFocusChange(s, change).effects <==> IsLoss(change) && s.isRecording
    ensures (ResumeCapture in OnAudioFocusChange(s, change).effects)
         == (change == Gain && s.wasRecordingBeforeInterruption)
    ensures OnlyRecorderCalls(OnAudioFocusChange(s, change).effects,
              if IsLoss(change) && s.isRecording then [PauseCapture]
              else if change == Gain && s.wasRecordingBeforeInterruption then [ResumeCapture]
              else [])
  {
    if IsLoss(change) && s.isRecording {
      LossOrder(s, change);
      var e := [PauseCapture, Emit(PausedDueToExternalAction)] + LossNotices;
      assert e[0] == PauseCapture && ResumeCapture !in e;
    } else if change == Gain && s.wasRecordingBeforeInterruption {
      GainOrder(s, change);
      var e := [ResumeCapture, Emit(Resumed)] + GainNotices;
      assert e[0] == ResumeCapture && PauseCapture !in e;
    } else {
      FocusCalls(s, change);
    }
  }

  /** No event is announced ahead of the recorder call it reports, in any step
      taken with a recorder present. */
  lemma StepOrder(s: Controller, i: Input)
    requires s.recorder.Some?
    ensures DrivenFirst(Step(s, i).effects)
  {
    match i
    case StartCmd(limit, reached, notify, env) => StartOrder(s, limit, reached, notify, env);
    case StopCmd(env) => StopOrder(s, env);
    case PauseCmd(call) => PauseOrder(s, call);
    case ResumeCmd(call) => ResumeOrder(s, call);
    case FocusSignal(change) =>
      if s.holdsFocusRequest {
        FocusOrder(s, change);
      } else {
        UnrelatedDriven([]);
      }
  }

  /** The recorder calls a step can make. */
  predicate RecorderCall(e: Effect) {
    match e
    case OpenCapture(_) | PauseCapture | ResumeCapture | StopCapture | ReleaseCapture => true
    case _ => false
  }

  predicate NoRecorderCall(effects: seq<Effect>) {
    forall k :: 0 <= k < |effects| ==> !RecorderCall(effects[k])
  }

  /** Every recorder call in `effects` is one of `allowed`: the step asks
      nothing else of a recorder. */
  predicate OnlyRecorderCalls(effects: seq<Effect>, allowed: seq<Effect>) {
    forall k :: 0 <= k < |effects| && RecorderCall(effects[k]) ==> effects[k] in allowed
  }

  lemma OnlyRecorderCallsAfter(before: seq<Effect>, block: seq<Effect>, allowed: seq<Effect>)
    requires NoRecorderCall(before) && OnlyRecorderCalls(block, allowed)
    ensures OnlyRecorderCalls(before + block, allowed)
  {
    var all := before + block;
    forall k | 0 <= k < |all| && RecorderCall(all[k])
      ensures all[k] in allowed
    {
      if k >= |before| {
        assert all[k] == block[k - |before|];
      }
    }
  }

  lemma StopWithoutRecorder(s: Controller, env: StopEnv)
    requires s.recorder.None?
    ensures NoRecorderCall(StopRecording(s, env).effects)
  {
    if s.isRecording {
      var released := AbandonAudioFocus(s).effects;
      StopCalls(s, env);
      assert released == [] || released == [AbandonFocus];
      assert NoRecorderCall(released + [Emit(Stopped), ExitForeground]);
    }
  }

  lemma FocusWithoutRecorder(s: Controller, change: FocusChange)
    requires s.recorder.None?
    ensures NoRecorderCall(OnAudioFocusChange(s, change).effects)
  {
    FocusCalls(s, change);
    assert OnRecorder(s, PauseCapture) == [] && OnRecorder(s, ResumeCapture) == [];
    assert NoRecorderCall([Emit(PausedDueToExternalAction)] + LossNotices);
    assert NoRecorderCall([Emit(Resumed)] + GainNotices);
  }

  lemma PauseWithoutRecorder(s: Controller, call: CallOutcome)
    requires s.recorder.None?
    ensures NoRecorderCall(PauseRecording(s, call).effects)
  {
    if s.isRecording {
      assert PauseRecording(s, call).effects == [] + [Emit(Paused)];
    }
  }

  lemma ResumeWithoutRecorder(s: Controller, call: CallOutcome)
    requires s.recorder.None?
    ensures NoRecorderCall(ResumeRecording(s, call).effects)
  {
    if s.isRecording {
      assert ResumeRecording(s, call).effects == [] + [Emit(Resumed)];
    }
  }

  /** With no recorder, pausing, resuming, stopping and the listener call no
      recorder method: the calls through the missing reference are skipped. */
  lemma NoRecorderNoCalls(s: Controller, i: Input)
    requires s.recorder.None? && !i.StartCmd?
    ensures NoRecorderCall(Step(s, i).effects)
  {
    match i
    case StopCmd(env) => StopWithoutRecorder(s, env);
    case PauseCmd(call) => PauseWithoutRecorder(s, call);
    case ResumeCmd(call) => ResumeWithoutRecorder(s, call);
    case FocusSignal(change) =>
      if s.holdsFocusRequest {
        FocusWithoutRecorder(s, change);
      }
  }
}

=== FILE: scenarios.dfy ===
/** Whole runs, traced step by step: the usual session, and the behaviours where
    the controller's code departs from an idealised Idle/Recording/Paused life
    cycle. */
module Scenarios {

  import opened Options
  import opened ControllerData
  import opened RecordingController
  import opened Sessions
  import opened Events

  /** Extending a run by one input whose step is known. */
  lemma Then(s: Controller, done: seq<Input>, i: Input, r: StepResult)
    requires Step(Run(s, done).final, i) == r
    ensures Run(s, done + [i]) == Trace(r.next, Run(s, done).replies + [r.reply], Run(s, done).log + r.effects)
  {
    RunLast(s, done, i);
  }

  lemma Announced3(a: Reply, b: Reply, c: Reply)
    ensures AnnouncedAll([Some(a), Some(b), Some(c)]) == Announced(a) + Announced(b) + Announced(c)
  {
    var none: seq<Option<Reply>> := [];
    var one := none + [Some(a)];
    var two := one + [Some(b)];
    AnnouncedLast(none, a);
    AnnouncedLast(one, b);
    AnnouncedLast(two, c);
    assert two + [Some(c)] == [Some(a), Some(b), Some(c)];
  }

  lemma Announced4(a: Reply, b: Reply, c: Reply, d: Reply)
    ensures AnnouncedAll([Some(a), Some(b), Some(c), Some(d)])
         == Announced(a) + Announced(b) + Announced(c) + Announced(d)
  {
    var three := [Some(a), Some(b), Some(c)];
    Announced3(a, b, c);
    AnnouncedLast(three, d);
    assert three + [Some(d)] == [Some(a), Some(b), Some(c), Some(d)];
  }

  /** A start with a 60 s limit and a 10 s notice that is granted focus and finds
      the directory `dir`. */
  function Begin(dir: string, now: int, open: CallOutcome): Input {
    StartCmd(60.0, Some(true), Some(10.0), StartEnv(true, Some(dir), now, open))
  }

  /** A stop whose recorder calls return. */
  const Finish: Input := StopCmd(StopEnv(Returned, Returned))

  function Usual(dir: string, now: int): seq<Input> {
    [Begin(dir, now, Returned), PauseCmd(Returned), ResumeCmd(Returned), Finish]
  }

  /** The session a usual start opens: recording to the named file, holding focus. */
  function Opened(path: string): Controller {
    Controller(Some(Capture(path)), Some(path), true, false, true)
  }

  /** A usual start from construction resolves with the named file and opens it. */
  lemma Opening(dir: string, now: int)
    ensures var path := OutputPath(dir, now);
            var t := Run(Initial, [Begin(dir, now, Returned)]);
            t.final == Opened(path) && t.replies == [Some(StartResolved(path))]
  {
    var i0 := Begin(dir, now, Returned);
    assert Step(Initial, i0).next == Opened(OutputPath(dir, now));
    assert [] + [i0] == [i0];
    Then(Initial, [], i0, Step(Initial, i0));
  }

  /** The first half of the usual session: the start and the pause resolve. */
  lemma UsualOpening(dir: string, now: int)
    ensures var path := OutputPath(dir, now);
            var t := Run(Initial, [Begin(dir, now, Returned), PauseCmd(Returned)]);
            && t.replies == [Some(StartResolved(path)), Some(PauseResolved)]
            && t.final == Opened(path)
  {
    var path := OutputPath(dir, now);
    var i0, i1 := Begin(dir, now, Returned), PauseCmd(Returned);
    assert [i0] + [i1] == [i0, i1];
    Opening(dir, now);
    Then(Initial, [i0], i1, Step(Opened(path), i1));
  }

  /** A usual stop of an opened session: focus, then the recorder, then the
      event and the service; the session ends idle with the path remembered. */
  lemma Closing(path: string)
    ensures Step(Opened(path), Finish)
         == StepResult(Controller(None, Some(path), false, false, false), Some(StopResolved(Some(path))),
                       [AbandonFocus, StopCapture, ReleaseCapture, Emit(Stopped), ExitForeground])
  {
  }

  /** The first three commands of the usual session resolve and leave it open. */
  lemma UsualMiddle(dir: string, now: int)
    ensures var path := OutputPath(dir, now);
            var t := Run(Initial, [Begin(dir, now, Returned), PauseCmd(Returned), ResumeCmd(Returned)]);
            && t.replies == [Some(StartResolved(path)), Some(PauseResolved), Some(ResumeResolved)]
            && t.final == Opened(path)
  {
    var path := OutputPath(dir, now);
    var opening := [Begin(dir, now, Returned), PauseCmd(Returned)];
    var i2 := ResumeCmd(Returned);
    UsualOpening(dir, now);
    assert Step(Opened(path), i2) == StepResult(Opened(path), Some(ResumeResolved), [ResumeCapture, Emit(Resumed)]);
    Then(Initial, opening, i2, Step(Opened(path), i2));
    assert opening + [i2] == [Begin(dir, now, Returned), PauseCmd(Returned), ResumeCmd(Returned)];
  }

  /** Start, pause, resume, stop: each command resolves, the stop returns the
      started file, and the controller ends idle with focus given up and the path
      remembered. */
  lemma UsualSession(dir: string, now: int)
    ensures var path := OutputPath(dir, now);
            var t := Run(Initial, Usual(dir, now));
            && t.replies == [Some(StartResolved(path)), Some(PauseResolved), Some(ResumeResolved),
                             Some(StopResolved(Some(path)))]
            && t.final == Controller(None, Some(path), false, false, false)
  {
    var path := OutputPath(dir, now);
    var middle := [Begin(dir, now, Returned), PauseCmd(Returned), ResumeCmd(Returned)];
    UsualMiddle(dir, now);
    Closing(path);
    Then(Initial, middle, Finish, Step(Opened(path), Finish));
    assert Usual(dir, now) == middle + [Finish];
  }

  /** A run of four commands announces what its four replies announce. */
  lemma FourReplies(s: Controller, inputs: seq<Input>, a: Reply, b: Reply, c: Reply, d: Reply)
    requires forall k :: 0 <= k < |inputs| ==> !inputs[k].FocusSignal?
    requires Run(s, inputs).replies == [Some(a), Some(b), Some(c), Some(d)]
    ensures Statuses(Run(s, inputs).log) == Announced(a) + Announced(b) + Announced(c) + Announced(d)
  {
    RunEvents(s, inputs);
    Announced4(a, b, c, d);
  }

  /** The usual session announces started, paused, resumed and stopped, once each
      and in that order. */
  lemma UsualEvents(dir: string, now: int)
    ensures Statuses(Run(Initial, Usual(dir, now)).log) == [Started, Paused, Resumed, Stopped]
  {
    var path := OutputPath(dir, now);
    UsualSession(dir, now);
    FourReplies(Initial, Usual(dir, now), StartResolved(path), PauseResolved, ResumeResolved, StopResolved(Some(path)));
  }

  const Twice: seq<Input> := [PauseCmd(Returned), PauseCmd(Returned), ResumeCmd(Returned)]

  /** Pausing does not leave the recording state, so a second pause is accepted,
      and so is a resume that follows no pause. */
  lemma PauseTwice(s: Controller)
    requires s.isRecording
    ensures var t := Run(s, Twice);
            && t.replies == [Some(PauseResolved), Some(PauseResolved), Some(ResumeResolved)]
            && t.final == s
  {
    var i0, i1, i2 := PauseCmd(Returned), PauseCmd(Returned), ResumeCmd(Returned);
    assert [] + [i0] == [i0];
    Then(s, [], i0, Step(s, i0));
    assert [i0] + [i1] == [i0, i1];
    Then(s, [i0], i1, Step(s, i1));
    assert [i0, i1] + [i2] == [i0, i1, i2];
    Then(s, [i0, i1], i2, Step(s, i2));
  }

  /** A run of three commands announces what its three replies announce. */
  lemma ThreeReplies(s: Controller, inputs: seq<Input>, a: Reply, b: Reply, c: Reply)
    requires forall k :: 0 <= k < |inputs| ==> !inputs[k].FocusSignal?
    requires Run(s, inputs).replies == [Some(a), Some(b), Some(c)]
    ensures Statuses(Run(s, inputs).log) == Announced(a) + Announced(b) + Announced(c)
  {
    RunEvents(s, inputs);
    Announced3(a, b, c);
  }

  /** Both pauses are announced, and so is the resume. */
  lemma PauseTwiceEvents(s: Controller)
    requires s.isRecording
    ensures Statuses(Run(s, Twice).log) == [Paused, Paused, Resumed]
  {
    PauseTwice(s);
    ThreeReplies(s, Twice, PauseResolved, PauseResolved, ResumeResolved);
  }

  /** Start, loss, stop: the session ends idle with the interruption flag set. */
  lemma InterruptedThenStopped(dir: string, now: int)
    ensures Run(Initial, [Begin(dir, now, Returned), FocusSignal(Loss), Finish]).final
         == Controller(None, Some(OutputPath(dir, now)), false, true, false)
  {
    var i0, i1, i2 := Begin(dir, now, Returned), FocusSignal(Loss), Finish;
    var path := OutputPath(dir, now);
    var interrupted := Opened(path).(wasRecordingBeforeInterruption := true);
    Opening(dir, now);
    assert Step(Opened(path), i1).next == interrupted;
    assert [i0] + [i1] == [i0, i1];
    Then(Initial, [i0], i1, Step(Opened(path), i1));
    assert [i0, i1] + [i2] == [i0, i1, i2];
    Then(Initial, [i0, i1], i2, Step(interrupted, i2));
  }

  /** A loss during one session is remembered past its stop: after a new start, a
      gain announces a resume although nothing in the new session was paused. */
  lemma StaleInterruption(dir: string, first: int, second: int)
    ensures var before := Run(Initial, [Begin(dir, first, Returned), FocusSignal(Loss), Finish,
                                        Begin(dir, second, Returned)]).final;
            && before.isRecording && before.wasRecordingBeforeInterruption
            && Statuses(Step(before, FocusSignal(Gain)).effects) == [Resumed]
  {
    var done := [Begin(dir, first, Returned), FocusSignal(Loss), Finish];
    var i3 := Begin(dir, second, Returned);
    var stopped := Controller(None, Some(OutputPath(dir, first)), false, true, false);
    InterruptedThenStopped(dir, first);
    var restarted := Step(stopped, i3).next;
    assert restarted.isRecording && restarted.wasRecordingBeforeInterruption;
    assert done + [i3] == [Begin(dir, first, Returned), FocusSignal(Loss), Finish, i3];
    Then(Initial, done, i3, Step(stopped, i3));
    FocusEvents(restarted, Gain);
  }

  /** A second start while recording whose recorder fails to open names the new
      file but keeps the old recorder. */
  lemma FailedRestart(dir: string, first: int, second: int, m: string)
    ensures var p1, p2 := OutputPath(dir, first), OutputPath(dir, second);
            var after := Controller(Some(Capture(p1)), Some(p2), true, false, true);
            var reply := Rejected(StartError, "Failed to start recording: " + m);
            Step(Opened(p1), Begin(dir, second, Raised(m))) == StepResult(after, Some(reply), [RequestFocus, OpenCapture(p2)])
  {
  }

  /** Nothing stops a second start while recording. When that start names a new
      file and then fails to open it, the recorder still writes the first file,
      yet the following stop resolves with the second, which was never written. */
  lemma FailedRestartRenames(dir: string, first: int, second: int, m: string)
    requires first != second
    ensures var t := Run(Initial, [Begin(dir, first, Returned), Begin(dir, second, Raised(m)), Finish]);
            && t.replies[1] == Some(Rejected(StartError, "Failed to start recording: " + m))
            && Run(Initial, [Begin(dir, first, Returned), Begin(dir, second, Raised(m))]).final.recorder
               == Some(Capture(OutputPath(dir, first)))
            && t.replies[2] == Some(StopResolved(Some(OutputPath(dir, second))))
            && OutputPath(dir, second) != OutputPath(dir, first)
  {
    var i0, i1, i2 := Begin(dir, first, Returned), Begin(dir, second, Raised(m)), Finish;
    var p1, p2 := OutputPath(dir, first), OutputPath(dir, second);
    var s1 := Opened(p1);
    var s2 := Controller(Some(Capture(p1)), Some(p2), true, false, true);
    Opening(dir, first);
    FailedRestart(dir, first, second, m);
    assert [i0] + [i1] == [i0, i1];
    Then(Initial, [i0], i1, Step(s1, i1));
    assert Step(s2, i2).reply == Some(StopResolved(Some(p2)));
    assert [i0, i1] + [i2] == [i0, i1, i2];
    Then(Initial, [i0, i1], i2, Step(s2, i2));
    OutputPathInjective(dir, first, second);
  }
}

=== FILE: session.dfy ===
/** The controller driven by a serialised sequence of inputs: application commands
    and focus signals. A focus signal reaches the listener only while a focus
    request is held, because the listener is attached to that request and is
    detached when the request is abandoned. */
module Sessions {

  import opened Options
  import opened ControllerData
  import opened RecordingController

  datatype Input =
    | StartCmd(recordingTimeLimit: real, notifyTimeLimitReached: Option<bool>,
               notifyTimeLimit: Option<real>, startEnv: StartEnv)
    | StopCmd(stopEnv: StopEnv)
    | PauseCmd(pauseCall: CallOutcome)
    | ResumeCmd(resumeCall: CallOutcome)
    | FocusSignal(change: FocusChange)

  /** A step's result; only commands have a reply. */
  datatype StepResult = StepResult(next: Controller, reply: Option<Reply>, effects: seq<Effect>)

  function FromOutcome(o: Outcome): StepResult {
    StepResult(o.next, Some(o.reply), o.effects)
  }

  function Step(s: Controller, i: Input): (r: StepResult)
    ensures r.reply.None? <==> i.FocusSignal?
    ensures i.FocusSignal? && !s.holdsFocusRequest ==> r == StepResult(s, None, [])
  {
    match i
    case StartCmd(limit, reached, notify, env) => FromOutcome(StartRecording(s, limit, reached, notify, env))
    case StopCmd(env) => FromOutcome(StopRecording(s, env))
    case PauseCmd(call) => FromOutcome(PauseRecording(s, call))
    case ResumeCmd(call) => FromOutcome(ResumeRecording(s, call))
    case FocusSignal(change) =>
      if s.holdsFocusRequest then
        var r := OnAudioFocusChange(s, change);
        StepResult(r.next, None, r.effects)
      else
        StepResult(s, None, [])
  }

  /** The state after a run, the reply to each input, and every call made, in order. */
  datatype Trace = Trace(final: Controller, replies: seq<Option<Reply>>, log: seq<Effect>)

  function Run(s: Controller, inputs: seq<Input>): (t: Trace)
    ensures |t.replies| == |inputs|
    decreases |inputs|
  {
    if |inputs| == 0 then Trace(s, [], [])
    else
      var before := Run(s, inputs[..|inputs| - 1]);
      var r := Step(before.final, inputs[|inputs| - 1]);
      Trace(r.next, before.replies + [r.reply], before.log + r.effects)
  }

  lemma RunLast(s: Controller, inputs: seq<Input>, i: Input)
    ensures Run(s, inputs + [i]).final == Step(Run(s, inputs).final, i).next
    ensures Run(s, inputs + [i]).log == Run(s, inputs).log + Step(Run(s, inputs).final, i).effects
    ensures Run(s, inputs + [i]).replies == Run(s, inputs).replies + [Step(Run(s, inputs).final, i).reply]
  {
    assert (inputs + [i])[..|inputs|] == inputs;
  }

  // ----- The controller's own invariant -----

  /** Recording implies a recorder, and a recorder implies an output path. */
  predicate Consistent(s: Controller) {
    && (s.isRecording ==> s.recorder.Some?)
    && (s.recorder.Some? ==> s.outputFilePath.Some?)
  }

  lemma StepConsistent(s: Controller, i: Input)
    requires Consistent(s)
    ensures Consistent(Step(s, i).next)
  {
    match i
    case StartCmd(limit, reached, notify, env) =>
      assert Step(s, i).next == StartRecording(s, limit, reached, notify, env).next;
    case StopCmd(env) =>
      assert Step(s, i).next == StopRecording(s, env).next;
    case PauseCmd(call) =>
    case ResumeCmd(call) =>
    case FocusSignal(change) =>
      assert Step(s, i).next.isRecording == s.isRecording;
  }

  lemma {:induction false} RunConsistent(s: Controller, inputs: seq<Input>)
    requires Consistent(s)
    ensures Consistent(Run(s, inputs).final)
    decreases |inputs|
  {
    if |inputs| > 0 {
      var prefix := inputs[..|inputs| - 1];
      RunConsistent(s, prefix);
      StepConsistent(Run(s, prefix).final, inputs[|inputs| - 1]);
    }
  }

  // ----- What the calls reveal about the state -----

  /** An observer who sees only the calls made so far reads the state correctly:
      recording is on exactly when the latest lifecycle event was `Started`, and
      exactly when the foreground service was last entered rather than exited;
      a focus request is held exactly when focus was last requested rather than
      abandoned. */
  predicate AgreesWith(s: Controller, log: seq<Effect>) {
    && (s.isRecording <==> LastOn(log, Lifecycle) == Some(true))
    && (s.isRecording <==> LastOn(log, Foreground) == Some(true))
    && (s.holdsFocusRequest <==> LastOn(log, Focus) == Some(true))
  }

  /** No effect of `effects` switches any channel. */
  predicate Quiet(effects: seq<Effect>) {
    forall e :: e in effects ==> Switches(e).None?
  }

  lemma {:induction false} LastOnAbsent(effects: seq<Effect>, ch: Channel)
    requires forall e :: e in effects ==> !OnChannel(e, ch)
    ensures LastOn(effects, ch) == None
    decreases |effects|
  {
    if |effects| > 0 {
      var prefix := effects[..|effects| - 1];
      assert forall e :: e in prefix ==> e in effects;
      LastOnAbsent(prefix, ch);
    }
  }

  /** Appending effects that leave channel `ch` alone leaves its latest switch alone. */
  lemma LastOnUntouched(a: seq<Effect>, b: seq<Effect>, ch: Channel)
    requires forall e :: e in b ==> !OnChannel(e, ch)
    ensures LastOn(a + b, ch) == LastOn(a, ch)
  {
    LastOnAbsent(b, ch);
    LastOnAppend(a, b, ch);
  }

  /** The latest switch of `ch` in `a + [k] + b` is `k`'s when `b` leaves `ch` alone. */
  lemma LastOnPinned(a: seq<Effect>, k: Effect, b: seq<Effect>, ch: Channel)
    requires OnChannel(k, ch)
    requires forall e :: e in b ==> !OnChannel(e, ch)
    ensures LastOn(a + [k] + b, ch) == Some(Switches(k).value.1)
  {
    LastOnAbsent(b, ch);
    LastOnAppend(a + [k], b, ch);
    assert (a + [k])[..|a + [k]| - 1] == a;
  }

  lemma QuietAgrees(s: Controller, next: Controller, log: seq<Effect>, effects: seq<Effect>)
    requires AgreesWith(s, log) && Quiet(effects)
    requires next.isRecording == s.isRecording && next.holdsFocusRequest == s.holdsFocusRequest
    ensures AgreesWith(next, log + effects)
  {
    LastOnUntouched(log, effects, Lifecycle);
    LastOnUntouched(log, effects, Foreground);
    LastOnUntouched(log, effects, Focus);
  }

  // Effects of the commands on the three channels, stated over plain call lists.

  lemma LogStarted(log: seq<Effect>, path: string)
    ensures var after := log + [RequestFocus, OpenCapture(path), Emit(Started), EnterForeground];
            && LastOn(after, Lifecycle) == Some(true)
            && LastOn(after, Foreground) == Some(true)
            && LastOn(after, Focus) == Some(true)
  {
    var e := [RequestFocus, OpenCapture(path), Emit(Started), EnterForeground];
    assert log + e == log + [RequestFocus, OpenCapture(path)] + [Emit(Started)] + [EnterForeground];
    LastOnPinned(log + [RequestFocus, OpenCapture(path)], Emit(Started), [EnterForeground], Lifecycle);
    assert log + e == log + [RequestFocus, OpenCapture(path), Emit(Started)] + [EnterForeground] + [];
    LastOnPinned(log + [RequestFocus, OpenCapture(path), Emit(Started)], EnterForeground, [], Foreground);
    assert log + e == log + [RequestFocus] + [OpenCapture(path), Emit(Started), EnterForeground];
    LastOnPinned(log, RequestFocus, [OpenCapture(path), Emit(Started), EnterForeground], Focus);
  }

  lemma LogRequested(log: seq<Effect>, rest: seq<Effect>)
    requires Quiet(rest)
    ensures var after := log + ([RequestFocus] + rest);
            && LastOn(after, Lifecycle) == LastOn(log, Lifecycle)
            && LastOn(after, Foreground) == LastOn(log, Foreground)
            && LastOn(after, Focus) == Some(true)
  {
    assert log + ([RequestFocus] + rest) == log + [RequestFocus] + rest;
    LastOnUntouched(log, [RequestFocus] + rest, Lifecycle);
    LastOnUntouched(log, [RequestFocus] + rest, Foreground);
    LastOnPinned(log, RequestFocus, rest, Focus);
  }

  /** The focus channel after stopping: switched off when a request was abandoned. */
  lemma LogReleased(log: seq<Effect>, released: seq<Effect>, rest: seq<Effect>)
    requires released == [] || released == [AbandonFocus]
    requires forall e :: e in rest ==> !OnChannel(e, Focus)
    ensures LastOn(log + (released + rest), Focus)
         == if released == [] then LastOn(log, Focus) else Some(false)
  {
    if released == [] {
      assert released + rest == rest;
      LastOnUntouched(log, rest, Focus);
    } else {
      assert log + (released + rest) == log + [AbandonFocus] + rest;
      LastOnPinned(log, AbandonFocus, rest, Focus);
    }
  }

  lemma LogStopped(log: seq<Effect>, released: seq<Effect>, calls: seq<Effect>)
    requires released == [] || released == [AbandonFocus]
    requires Quiet(calls)
    ensures var after := log + (released + calls + [Emit(Stopped), ExitForeground]);
            && LastOn(after, Lifecycle) == Some(false)
            && LastOn(after, Foreground) == Some(false)
            && LastOn(after, Focus) == if released == [] then LastOn(log, Focus) else Some(false)
  {
    var before := log + released + calls;
    var after := log + (released + calls + [Emit(Stopped), ExitForeground]);
    assert after == before + [Emit(Stopped)] + [ExitForeground];
    LastOnPinned(before, Emit(Stopped), [ExitForeground], Lifecycle);
    assert after == (before + [Emit(Stopped)]) + [ExitForeground] + [];
    LastOnPinned(before + [Emit(Stopped)], ExitForeground, [], Foreground);
    assert released + calls + [Emit(Stopped), ExitForeground] == released + (calls + [Emit(Stopped), ExitForeground]);
    LogReleased(log, released, calls + [Emit(Stopped), ExitForeground]);
  }

  lemma LogStopFailed(log: seq<Effect>, released: seq<Effect>, calls: seq<Effect>)
    requires released == [] || released == [AbandonFocus]
    requires Quiet(calls)
    ensures var after := log + (released + calls);
            && LastOn(after, Lifecycle) == LastOn(log, Lifecycle)
            && LastOn(after, Foreground) == LastOn(log, Foreground)
            && LastOn(after, Focus) == if released == [] then LastOn(log, Focus) else Some(false)
  {
    LastOnUntouched(log, released + calls, Lifecycle);
    LastOnUntouched(log, released + calls, Foreground);
    LogReleased(log, released, calls);
  }

  lemma AcquireAgrees(s: Controller, log: seq<Effect>, env: StartEnv)
    requires AgreesWith(s, log)
    ensures var o := AcquireAndOpen(s, env);
            AgreesWith(o.next, log + o.effects)
  {
    var o := AcquireAndOpen(s, env);
    if o.reply.StartResolved? {
      var path := OutputPath(env.musicDir.value, env.nowMillis);
      assert o.effects == [RequestFocus, OpenCapture(path), Emit(Started), EnterForeground];
      LogStarted(log, path);
    } else {
      var rest := o.effects[1..];
      assert o.effects == [RequestFocus] + rest;
      assert rest == [] || rest == [OpenCapture(OutputPath(env.musicDir.value, env.nowMillis))];
      LogRequested(log, rest);
    }
  }

  lemma StartAgrees(s: Controller, log: seq<Effect>, limit: real, reached: Option<bool>,
                    notify: Option<real>, env: StartEnv)
    requires AgreesWith(s, log)
    ensures var o := StartRecording(s, limit, reached, notify, env);
            AgreesWith(o.next, log + o.effects)
  {
    if InvalidLimits(limit, notify) {
      assert log + [] == log;
    } else {
      AcquireAgrees(s, log, env);
    }
  }

  lemma StopAgrees(s: Controller, log: seq<Effect>, env: StopEnv)
    requires AgreesWith(s, log)
    ensures var o := StopRecording(s, env);
            AgreesWith(o.next, log + o.effects)
  {
    if !s.isRecording {
      assert log + [] == log;
    } else if s.recorder.Some? && env.stop.Raised? {
      StopFailedAgrees(s, log, env, [StopCapture]);
    } else if s.recorder.Some? && env.release.Raised? {
      StopFailedAgrees(s, log, env, [StopCapture, ReleaseCapture]);
    } else {
      StoppedAgrees(s, log, env);
    }
  }

  lemma StoppedAgrees(s: Controller, log: seq<Effect>, env: StopEnv)
    requires AgreesWith(s, log) && s.isRecording
    requires s.recorder.Some? ==> env.stop.Returned? && env.release.Returned?
    ensures var o := StopRecording(s, env);
            AgreesWith(o.next, log + o.effects)
  {
    var released := AbandonAudioFocus(s).effects;
    var calls := OnRecorder(s, StopCapture) + OnRecorder(s, ReleaseCapture);
    assert StopRecording(s, env).effects == released + calls + [Emit(Stopped), ExitForeground];
    LogStopped(log, released, calls);
  }

  lemma StopFailedAgrees(s: Controller, log: seq<Effect>, env: StopEnv, calls: seq<Effect>)
    requires AgreesWith(s, log) && s.isRecording && s.recorder.Some?
    requires calls == if env.stop.Raised? then [StopCapture] else [StopCapture, ReleaseCapture]
    requires env.stop.Raised? || env.release.Raised?
    ensures var o := StopRecording(s, env);
            AgreesWith(o.next, log + o.effects)
  {
    var released := AbandonAudioFocus(s).effects;
    assert StopRecording(s, env).effects == released + calls;
    LogStopFailed(log, released, calls);
  }

  lemma OnRecorderQuiet(s: Controller, call: Effect)
    requires Switches(call).None?
    ensures Quiet(OnRecorder(s, call))
  {
  }

  lemma PauseAgrees(s: Controller, log: seq<Effect>, call: CallOutcome)
    requires AgreesWith(s, log)
    ensures var o := PauseRecording(s, call);
            AgreesWith(o.next, log + o.effects)
  {
    var o := PauseRecording(s, call);
    OnRecorderQuiet(s, PauseCapture);
    assert o.effects == [] || o.effects == [PauseCapture] || o.effects == OnRecorder(s, PauseCapture) + [Emit(Paused)];
    QuietAgrees(s, o.next, log, o.effects);
  }

  lemma ResumeAgrees(s: Controller, log: seq<Effect>, call: CallOutcome)
    requires AgreesWith(s, log)
    ensures var o := ResumeRecording(s, call);
            AgreesWith(o.next, log + o.effects)
  {
    var o := ResumeRecording(s, call);
    OnRecorderQuiet(s, ResumeCapture);
    assert o.effects == [] || o.effects == [ResumeCapture] || o.effects == OnRecorder(s, ResumeCapture) + [Emit(Resumed)];
    QuietAgrees(s, o.next, log, o.effects);
  }

  lemma FocusAgrees(s: Controller, log: seq<Effect>, change: FocusChange)
    requires AgreesWith(s, log)
    ensures var r := OnAudioFocusChange(s, change);
            AgreesWith(r.next, log + r.effects)
  {
    var r := OnAudioFocusChange(s, change);
    OnRecorderQuiet(s, PauseCapture);
    OnRecorderQuiet(s, ResumeCapture);
    QuietAgrees(s, r.next, log, r.effects);
  }

  lemma StepAgrees(s: Controller, log: seq<Effect>, i: Input)
    requires AgreesWith(s, log)
    ensures AgreesWith(Step(s, i).next, log + Step(s, i).effects)
  {
    match i
    case StartCmd(limit, reached, notify, env) => StartAgrees(s, log, limit, reached, notify, env);
    case StopCmd(env) => StopAgrees(s, log, env);
    case PauseCmd(call) => PauseAgrees(s, log, call);
    case ResumeCmd(call) => ResumeAgrees(s, log, call);
    case FocusSignal(change) =>
      if s.holdsFocusRequest {
        FocusAgrees(s, log, change);
      } else {
        assert log + [] == log;
      }
  }

  /** From construction on, the recording flag and the focus request can be read
      off the calls made: the latest lifecycle event, foreground call and focus
      call. */
  lemma {:induction false} RunAgrees(inputs: seq<Input>)
    ensures AgreesWith(Run(Initial, inputs).final, Run(Initial, inputs).log)
    decreases |inputs|
  {
    if |inputs| > 0 {
      var prefix := inputs[..|inputs| - 1];
      RunAgrees(prefix);
      StepAgrees(Run(Initial, prefix).final, Run(Initial, prefix).log, inputs[|inputs| - 1]);
    }
  }
}

=== FILE: session_laws.dfy ===
/** Laws about whole recording sessions: what a run of commands and focus signals
    between a start and a stop keeps, what the stop then returns, and how focus
    signals and focus release behave when repeated or arriving too late. */
module SessionLaws {

  import opened Options
  import opened ControllerData
  import opened RecordingController
  import opened Sessions

  /** An input that may arrive while a session is under way and that changes
      neither the file nor the recording flag: pause, resume, a focus signal. */
  predicate InSession(i: Input) {
    i.PauseCmd? || i.ResumeCmd? || i.FocusSignal?
  }

  /** Pausing, resuming and focus signals never touch the recorder, the output
      path, the recording flag or the focus request. */
  lemma {:induction false} SessionKeepsFile(s: Controller, inputs: seq<Input>)
    requires forall k :: 0 <= k < |inputs| ==> InSession(inputs[k])
    ensures var f := Run(s, inputs).final;
            && f.recorder == s.recorder
            && f.outputFilePath == s.outputFilePath
            && f.isRecording == s.isRecording
            && f.holdsFocusRequest == s.holdsFocusRequest
    decreases |inputs|
  {
    if |inputs| > 0 {
      var prefix := inputs[..|inputs| - 1];
      SessionKeepsFile(s, prefix);
      var before := Run(s, prefix).final;
      var i := inputs[|inputs| - 1];
      if i.FocusSignal? && before.holdsFocusRequest {
        var r := OnAudioFocusChange(before, i.change);
        assert r.next == before || r.next == before.(wasRecordingBeforeInterruption := r.next.wasRecordingBeforeInterruption);
      }
    }
  }

  /** A stop that follows a successful start, with any pauses, resumes and focus
      signals in between, resolves with the file that start named, clears the
      recorder and the recording flag, and gives up focus. */
  lemma {:induction false} StopReturnsStartedFile(
    s: Controller, limit: real, reached: Option<bool>, notify: Option<real>, env: StartEnv,
    session: seq<Input>, stopEnv: StopEnv)
    requires StartRecording(s, limit, reached, notify, env).reply.StartResolved?
    requires forall k :: 0 <= k < |session| ==> InSession(session[k])
    requires stopEnv.stop.Returned? && stopEnv.release.Returned?
    ensures var started := StartRecording(s, limit, reached, notify, env);
            var stopped := StopRecording(Run(started.next, session).final, stopEnv);
            && stopped.reply == StopResolved(Some(started.reply.startedPath))
            && stopped.next.recorder.None?
            && !stopped.next.isRecording
            && !stopped.next.holdsFocusRequest
  {
    var started := StartRecording(s, limit, reached, notify, env);
    SessionKeepsFile(started.next, session);
  }

  /** With no focus request held, focus signals reach nobody: any number of them
      leave the controller as it is and make no call. */
  lemma {:induction false} UnheldIgnoresFocus(s: Controller, inputs: seq<Input>)
    requires !s.holdsFocusRequest
    requires forall k :: 0 <= k < |inputs| ==> inputs[k].FocusSignal?
    ensures Run(s, inputs).final == s
    ensures Run(s, inputs).log == []
    ensures forall k :: 0 <= k < |inputs| ==> Run(s, inputs).replies[k].None?
    decreases |inputs|
  {
    if |inputs| > 0 {
      var prefix := inputs[..|inputs| - 1];
      UnheldIgnoresFocus(s, prefix);
      assert Run(s, inputs).replies == Run(s, prefix).replies + [None];
    }
  }

  /** Once a recording session is stopped, whether or not the recorder failed,
      focus signals no longer pause or resume anything. */
  lemma {:induction false} FocusIgnoredAfterStop(s: Controller, env: StopEnv, signals: seq<Input>)
    requires s.isRecording
    requires forall k :: 0 <= k < |signals| ==> signals[k].FocusSignal?
    ensures var after := StopRecording(s, env).next;
            Run(after, signals).final == after && Run(after, signals).log == []
  {
    UnheldIgnoresFocus(StopRecording(s, env).next, signals);
  }

  /** Stopping does not clear the interruption flag: were the listener still
      called after a stop that followed a loss, a gain would announce a resume. */
  lemma StopKeepsInterruption(s: Controller, env: StopEnv)
    requires s.isRecording && s.wasRecordingBeforeInterruption
    ensures var r := OnAudioFocusChange(StopRecording(s, env).next, Gain);
            && EmitsOnly(r.effects, Resumed)
            && (r.next.isRecording <==> !StopRecording(s, env).reply.StopResolved?)
  {
  }

  /** A second gain after one that resumed is ignored: the first clears the flag. */
  lemma GainTwiceIsNoOp(s: Controller)
    ensures var first := OnAudioFocusChange(s, Gain);
            OnAudioFocusChange(first.next, Gain) == Reaction(first.next, [])
  {
  }

  /** Releasing focus twice abandons the request once. */
  lemma AbandonIdempotent(s: Controller)
    ensures var first := AbandonAudioFocus(s);
            AbandonAudioFocus(first.next) == Reaction(first.next, [])
  {
  }

  /** Stop, pause and resume while not recording are rejected the same way however
      often they are repeated, and change nothing. */
  lemma {:induction false} IdleCommandsRejected(s: Controller, inputs: seq<Input>)
    requires !s.isRecording
    requires forall k :: 0 <= k < |inputs| ==> inputs[k].StopCmd? || inputs[k].PauseCmd? || inputs[k].ResumeCmd?
    ensures Run(s, inputs).final == s
    ensures Run(s, inputs).log == []
    ensures forall k :: 0 <= k < |inputs| ==>
              Run(s, inputs).replies[k] == Some(Rejected(
                if inputs[k].StopCmd? then StopError
                else if inputs[k].PauseCmd? then PauseError
                else ResumeError, NotActive))
    decreases |inputs|
  {
    if |inputs| > 0 {
      var prefix := inputs[..|inputs| - 1];
      IdleCommandsRejected(s, prefix);
      assert forall k :: 0 <= k < |prefix| ==> prefix[k] == inputs[k];
    }
  }
}
